=== FILE: README.md ===
# clash-discord scoring core in Dafny

This project models the pure core of the clash-discord bot, a Discord bot
for Clash of Clans clans. The bot reads snapshots of wars, Clan War League
(CWL) groups and player profiles from the game's API and turns them into
scores, rosters and Discord role changes. The model takes those snapshots
as immutable records and covers:

- **War scoring** (`WarScoring`, `WarModel`). `th_multiplier` weighs an
  attack by the town-hall difference between defender and attacker.
  `attack_score` is three quarters stars and one quarter destruction,
  times that weight. `member_score` starts each member at -100 per
  potential attack (one in a league war, two otherwise). It then adds 100
  plus the attack's points for every attack made and divides by the
  potential attacks. `find_defender` looks a defender up by tag.
- **War queries** (`WarQueries`). `war_no_attack` lists the members who
  missed attacks. `war_clan_lineup`, `clan_lineup` and `cwl_clan_lineup`
  count members per town-hall level from a fresh copy of the 1..14 template. The
  template's keys run from 14 down to 1, and replies list a lineup in that
  order.
- **League scoring** (`CwlScoring`).
  - `cwl_member_score` skips unpaired ("#0") and unfinished rounds. It
    records one round score per counted round, 0 when the member sat out.
    It averages over the rounds attended and scales by a participation
    weight.
  - `cwl_clan_member_scoreboard_list` scores the clan's roster over the
    ended wars and drops the members who took part in none.
  - `cwl_clan_scoreboard` sums stars and destruction over ended wars and
    adds 10 stars per won war.
  - `cwl_current_round` numbers the round a war belongs to.
- **Donations** (`Donation`, `Units`).
  - A requested name is resolved against the home-troop catalogue, then the
    spell catalogue. Matching ignores dots and letter case.
  - The members holding the unit are collected.
  - If the best holder can donate at maximum level once the clan's donation
    upgrade is added, everyone who can do so is listed. Otherwise the
    holders at the best level held are listed.
  - `find_unit` and `find_player_unit` search a player's unit lists in the
    bot's fixed order.
  - `player_active_super_troops` keeps the troops a player has boosted, and
    `active_super_troop_search` keeps the members who have a given super
    troop boosted.
- **Discord helpers** (`Roles`, `Lookups`, `Standings`, `TimeText`).
  - `role_add_remove_list` diffs needed against held roles. `role_switch`
    maps a linked account's clan and rank to roles.
  - `nickname_available`, `role_check`, `help_emoji_to_category` and
    `player_name_string` are small searches.
  - `war_member_standing` and `war_all_member_standing` answer "what is my
    score" and "what are everyone's scores". The second sorts best first
    with a stable sort (`Sorting`).
  - `date_time_calculator` and the singular/plural words are in `TimeText`.

Collections are `seq`s, and lookups that can fail return `Option`.
Network fetches are replaced by their results, passed in as sequences: the
players of a clan and the wars and clans of a league group. Python's `str.lower()` is modelled on ASCII letters only.

The town-hall weight is the integer table 35, 50, 80, 100, 140, 155, 200,
and `attack_score` multiplies by it directly. So one attack is worth
between 0 and 200 points, and a member's score lies roughly between -100
and 200.

`math.log(participated, len(cwl_wars))` is transcendental. The
participation weight therefore takes the logarithm as a parameter
`logBase(x, base)`, and only the averaging and the guards around it are
proved. As in the code, the base is the number of wars passed in, skipped
rounds included.

Where the source crashes on input it does not expect, the model states
that input as a precondition:

- an attack whose defender is missing from the opposing roster;
- a town hall outside 1..14 in a lineup.

A linked account outside any clan makes `role_switch` raise an
AttributeError; there the model returns `None`.

## Model

| member | source | states |
|---|---|---|
| WarScoring.ThMultiplier | ClashDiscord/responders/ClashResponder.py:1104-1124 | The weight lies in 35..200; it is 100 exactly for equal town halls and below 100 exactly when the defender's town hall is lower; the final else branch cannot be reached. |
| WarScoring.ThMultiplierMonotone | ClashDiscord/responders/ClashResponder.py:1104-1124 | A larger town-hall difference never gives a smaller weight. |
| WarScoring.AttackPoints | ClashDiscord/responders/ClashResponder.py:960-965 | Points are non-negative for non-negative stars and destruction, at most the town-hall weight for a legal attack, and exactly the weight for three stars and 100%. |
| WarScoring.AttackPointsMonotone | ClashDiscord/responders/ClashResponder.py:960-965 | With the town-hall difference fixed, more stars or more destruction never score fewer points. |
| WarScoring.AttackScore | ClashDiscord/responders/ClashResponder.py:945-967 | The scored attack keeps the attack's stars and destruction, and its points are weighed by the town-hall difference to a defender on the opposing roster with the attacked tag. |
| WarModel.FindMember | ClashDiscord/responders/ClashResponder.py:1062-1071 | None exactly when no member carries the tag; otherwise the first member in roster order that does. |
| WarScoring.PotentialAttacks | ClashDiscord/responders/ClashResponder.py:911-914 | One potential attack in a league war, two otherwise. |
| WarScoring.Tally | ClashDiscord/responders/ClashResponder.py:923-932 | The attack loop adds one to the count, the attack's stars and destruction, and 100 plus the attack's points for every attack, against the reference sums. |
| WarScoring.MemberScore | ClashDiscord/responders/ClashResponder.py:883-942 | The attack count is the number of attacks, stars and destruction are their sums, and the score is the attack points minus 100 per unused potential attack, divided by the potential attacks. |
| WarScoring.NoAttacksScoresFloor | ClashDiscord/responders/ClashResponder.py:883-942 | A member without attacks scores exactly -100 in either kind of war. |
| WarScoring.ScoreAtLeastFloor | ClashDiscord/responders/ClashResponder.py:883-942 | With non-negative stars and destruction a member never scores below -100. |
| WarScoring.PointsNonNegative | ClashDiscord/responders/ClashResponder.py:945-967 | The points of attacks with non-negative stars and destruction add up to a non-negative total. |
| WarScoring.SingleMaxAttackScoresZero | ClashDiscord/responders/ClashResponder.py:883-942 | One three-star 100% attack on an equal town hall in a regular war scores exactly 0. |
| WarQueries.WarNoAttack | ClashDiscord/responders/ClashResponder.py:670-693 | The reported members are in roster order and are exactly those whose attack count differs from the allowance (no count given) or who miss exactly the given count, with multiplicity. |
| WarQueries.WarNoAttackAnyCount | ClashDiscord/responders/ClashResponder.py:670-693 | A member is reported without a count exactly when some non-zero missed count reports them. |
| WarQueries.EmptyLineup | ClashDiscord/responders/ClashResponder.py:8-23 | The template has the levels 1..14, each with count 0. |
| WarQueries.CountIntoCounts | ClashDiscord/responders/ClashResponder.py:664-665 | Counting adds to each level the number of members listed at that level. |
| WarQueries.Lineup | ClashDiscord/responders/ClashResponder.py:661-667 | Every level 1..14 is present and maps to the number of members at that level. |
| WarQueries.WarClanLineup | ClashDiscord/responders/ClashResponder.py:661-667 | A war side's lineup has the levels 1..14, each with the number of its members at that level. |
| WarQueries.ClanLineup | ClashDiscord/responders/ClashResponder.py:490-496 | A clan's lineup from its members' profiles has the levels 1..14, each with the number of members at that level. |
| WarQueries.CwlClanLineup | ClashDiscord/responders/ClashResponder.py:714-718 | A league clan's lineup has the levels 1..14, each with the number of its members at that level. |
| WarQueries.CountIntoTotal | ClashDiscord/responders/ClashResponder.py:664-665 | Counting n members raises the total over all levels by n. |
| WarQueries.LineupConservesMembers | ClashDiscord/responders/ClashResponder.py:661-667 | The counts of a lineup add up to the number of members counted. |
| WarQueries.WarClanLineupConservesMembers | ClashDiscord/responders/ClashResponder.py:661-667 | The counts of a war side's lineup add up to its roster size. |
| WarQueries.ClanLineupConservesMembers | ClashDiscord/responders/ClashResponder.py:490-496 | The counts of a clan's lineup add up to the number of profiles counted. |
| WarQueries.CwlClanLineupConservesMembers | ClashDiscord/responders/ClashResponder.py:714-718 | The counts of a league clan's lineup add up to its roster size. |
| WarQueries.LineupRows | ClashDiscord/responders/ClashResponder.py:8-23 | A lineup is listed in the template's key order: fourteen entries, town halls strictly decreasing, every level 1..14 exactly once, each with its count. |
| WarQueries.LineupRowsConserveMembers | ClashDiscord/responders/ClashResponder.py:661-667 | Listed in that order, the counts still add up to the number of members counted. |
| CwlScoring.Rounds | ClashDiscord/responders/ClashResponder.py:764-771 | The counted rounds come from the schedule and are paired and ended. |
| CwlScoring.RoundsIsFilter | ClashDiscord/responders/ClashResponder.py:764-771 | The counted rounds are exactly the schedule filtered to paired, ended wars, in schedule order. |
| CwlScoring.RoundScores | ClashDiscord/responders/ClashResponder.py:773-787 | One entry per counted round: the member's war score there, 0 when absent. |
| CwlScoring.Collect | ClashDiscord/responders/ClashResponder.py:764-787 | The round loop appends one score per counted round and adds one participation and one potential attack, the attack count, stars and destruction of each attended round. |
| CwlScoring.CwlMemberScore | ClashDiscord/responders/ClashResponder.py:721-809 | Round scores cover exactly the counted rounds; participation equals potential attacks and the number of attended rounds; totals are the attended rounds' sums; no participation gives score 0; otherwise the score is the round-score average over attended rounds times the participation weight. |
| CwlScoring.CwlMemberScoreAveragesAttended | ClashDiscord/responders/ClashResponder.py:793-808 | The average is the sum of the attended rounds' war scores over the rounds attended: absent rounds add nothing. |
| CwlScoring.RoundScoresSum | ClashDiscord/responders/ClashResponder.py:773-795 | The round scores sum to the scores of the attended rounds. |
| CwlScoring.FullParticipation | ClashDiscord/responders/ClashResponder.py:773-787 | A member on every counted round's roster attends every counted round. |
| CwlScoring.FullAttendanceNotDiscounted | ClashDiscord/responders/ClashResponder.py:797-808 | Attending every war of a finished, fully paired schedule gives the plain average, given that a logarithm of its base is 1. |
| CwlScoring.FewWarsNotDiscounted | ClashDiscord/responders/ClashResponder.py:800-806 | With fewer than two wars the weight is 1 and the score is the plain average. |
| CwlScoring.RoundsAll | ClashDiscord/responders/ClashResponder.py:764-771 | A schedule of paired, ended wars is counted in full. |
| CwlScoring.NoParticipation | ClashDiscord/responders/ClashResponder.py:773-787 | A member on no counted round's roster attends no round. |
| CwlScoring.EndedWars | ClashDiscord/responders/ClashResponder.py:814-817 | The wars kept are exactly the ended ones, in schedule order. |
| CwlScoring.FindCwlClan | ClashDiscord/responders/ClashResponder.py:820-823 | None exactly when no clan of the group has the tag; otherwise the first clan that does. |
| CwlScoring.ScoreMembers | ClashDiscord/responders/ClashResponder.py:826-830 | One league score per roster member, in roster order. |
| CwlScoring.CwlClanMemberScoreboardList | ClashDiscord/responders/ClashResponder.py:812-832 | None exactly when the group lists no clan with the tag; otherwise the roster's league scores over the ended wars, in roster order, keeping exactly those with a non-zero participation, each as many times as it is scored. |
| CwlScoring.UnfinishedWarIgnored | ClashDiscord/responders/ClashResponder.py:815-817 | A war not yet ended changes no entry of the list, the participation weight's base included. |
| CwlScoring.AbsentMemberNotListed | ClashDiscord/responders/ClashResponder.py:826-832 | A member on the roster of no ended war has participation 0 and no entry. |
| CwlScoring.CwlClanScoreboard | ClashDiscord/responders/ClashResponder.py:835-864 | Stars are the clan's stars over ended wars plus 10 per war recorded as won; destruction is the sum over ended wars. |
| CwlScoring.ScoreboardAdditive | ClashDiscord/responders/ClashResponder.py:852-859 | The totals of two schedules played one after the other are the sums of their totals. |
| CwlScoring.WonBonusOutsideEndedGuard | ClashDiscord/responders/ClashResponder.py:853-859 | A war recorded as won earns its 10 stars even when it is not in the ended state, and adds no destruction. |
| CwlScoring.CwlCurrentRound | ClashDiscord/responders/ClashResponder.py:867-878 | None exactly when no round lists the war tag; otherwise the 1-based number of the first round that does. |
| Donation.ClanDonationUpgrade | ClashDiscord/responders/ClashResponder.py:585-591 | The upgrade is at most 2, 0 exactly below clan level 5, 2 exactly from level 10. |
| Donation.ClanDonationUpgradeMonotone | ClashDiscord/responders/ClashResponder.py:585-591 | A higher clan level never gives a smaller upgrade. |
| Donation.DonatableName | ClashDiscord/responders/ClashResponder.py:523-541 | The name resolves to a home troop or spell of the catalogues that matches the request ignoring dots and case; a matching home troop wins over any spell; it fails exactly when neither catalogue matches. |
| Donation.Holders | ClashDiscord/responders/ClashResponder.py:544-552 | A donor is listed exactly when it pairs a clan member with the unit the member's unit search finds. |
| Donation.HoldersInClanOrder | ClashDiscord/responders/ClashResponder.py:544-556 | The donors' members are exactly the clan's members that hold the unit, in clan order, one donor each. |
| Donation.DonorMax | ClashDiscord/responders/ClashResponder.py:558 | The highest level held: no holder's level exceeds it and some holder has it. |
| Donation.HoldersFirst | ClashDiscord/responders/ClashResponder.py:544-556 | The first holder listed is the first member in clan order who holds the unit; the list is empty exactly when nobody holds it. |
| Donation.Donation | ClashDiscord/responders/ClashResponder.py:500-582 | None exactly for an unresolved name; otherwise a subsequence of the holders: empty when nobody holds the unit, the holders who can donate at maximum level when the best can, else the non-empty list of holders at the best level. |
| Donation.DonationKeepsCopies | ClashDiscord/responders/ClashResponder.py:564-582 | Each kept holder appears as many times as among the holders: the holders who can donate at maximum level, or else those at the best level. |
| Donation.BestHeldNonEmpty | ClashDiscord/responders/ClashResponder.py:576-582 | The holders at the best level are exactly those at the highest level held, and there is at least one. |
| Donation.MaxBranchNonEmpty | ClashDiscord/responders/ClashResponder.py:566-574 | When all holders share one maximum level and the best can donate at it, some holder can donate at maximum level, so that branch lists somebody. |
| Units.FindByName | ClashDiscord/responders/ClashResponder.py:199-214 | None exactly when no element's name matches ignoring dots and case; otherwise the first matching element. |
| Units.FindUnit | ClashDiscord/responders/ClashResponder.py:199-214 | None exactly when no unit of the list matches; otherwise the first unit of the list, in list order, that matches the request. |
| Units.FindName | ClashDiscord/responders/ClashResponder.py:127-160 | None exactly when no catalogue name matches; otherwise the first catalogue name, in catalogue order, that matches the request. |
| Units.FindPlayerUnitMatches | ClashDiscord/responders/ClashResponder.py:378-426 | None exactly when none of the player's units matches; otherwise a matching unit of the player. |
| Donation.ActiveSuperTroopSearch | ClashDiscord/responders/ClashResponder.py:594-619 | The members listed, in member order and each as often as in the clan, are exactly those on whom the troop lookup finds the troop boosted. |
| Units.ActiveSuperTroops | ClashDiscord/responders/ClashResponder.py:460-469 | A subsequence of the player's troops holding exactly the active ones, each as often as the player lists it. |
| Units.FindByNameRespectsKey | ClashDiscord/responders/ClashResponder.py:199-214 | Two requests with the same normalised name find the same element. |
| Units.NormaliseIgnoresDot | ClashDiscord/responders/ClashResponder.py:208-211 | Dots in a name do not change what it matches. |
| Units.NormaliseIgnoresCase | ClashDiscord/responders/ClashResponder.py:208-211 | Upper-casing a name does not change what it matches. |
| Units.FindUnitIgnoresDotAndCase | ClashDiscord/responders/ClashResponder.py:199-214 | "P.E.K.K.A", "pekka" and "PEKKA" find the same unit. |
| Units.FindByNameAppend | ClashDiscord/responders/ClashResponder.py:378-426 | Searching one list and then another is searching their concatenation. |
| Units.FindPlayerUnitIsFirstMatch | ClashDiscord/responders/ClashResponder.py:378-426 | The category-by-category search finds the first matching unit of all of a player's units in search order. |
| TimeText.DateTimeCalculator | ClashDiscord/responders/ClashResponder.py:1020-1032 | Hours, minutes and seconds are in range and the parts add back up to the difference. |
| TimeText.DateTimeCalculatorRoundTrip | ClashDiscord/responders/ClashResponder.py:1020-1032 | A well-formed countdown is recovered from the seconds it stands for. |
| TimeText.StringAttack | ClashDiscord/responders/ClashResponder.py:1074-1081 | "attack" exactly for one attack, "attacks" otherwise. |
| TimeText.StringAttackTimes | ClashDiscord/responders/ClashResponder.py:1084-1091 | "time" exactly for a single attack, "times" otherwise. |
| TimeText.StringMemberStars | ClashDiscord/responders/ClashResponder.py:1094-1101 | "star" exactly for one star, "stars" otherwise. |
| Roles.RoleAddRemoveList | DiscordResponder.py:2014-2046 | The add list is the needed roles not held, in needed order, each as often as it is needed; the remove list is the held roles not needed, in held order, each as often as it is held. |
| Roles.AddRemoveReachesNeeded | DiscordResponder.py:2014-2046 | Applying both lists to the held roles leaves exactly the needed roles. |
| Roles.AddRemoveEqualIsEmpty | DiscordResponder.py:2014-2046 | Equal needed and held roles give two empty lists. |
| Roles.RankRole | DiscordResponder.py:2105-2116 | leader, coLeader, admin and member map to leader, co-leader, elder and member; anything else maps to uninitiated. |
| Roles.LastWhere | DiscordResponder.py:2118-2130 | The role the overwriting loop ends with: the last held role of the kind, or None when none is held. |
| Roles.ClearedRoles | DiscordResponder.py:2063-2081 | Without an account, exactly the held clan roles and rank roles are removed. |
| Roles.ClearedRolesCount | DiscordResponder.py:2063-2081 | A role is removed once per client clan of that name, plus once if it is a rank role, for every time it is held. |
| Roles.RoleSwitchUnlinkedCount | DiscordResponder.py:2058-2081 | Without an account, the remove list of the switch holds each role that many times. |
| Roles.RoleSwitch | DiscordResponder.py:2049-2140 | None exactly for a linked account outside any clan. Only held roles are removed. Without an account, "community" is added exactly when not held, and exactly the clan and rank roles held are removed. With one, the added roles are exactly the account's clan when it differs from the last clan role held and its rank role when it differs from the last rank role held; the removed roles are exactly the held "community" roles, the old clan role (if named) when the clan changed, and the old rank role when the rank changed. |
| Roles.RoleSwitchNoChurn | DiscordResponder.py:2093-2138 | A linked user already holding their clan's and rank's roles gains nothing and loses only "community". |
| Roles.RoleSwitchSettles | DiscordResponder.py:2089-2140 | After the switch a linked user holds their clan's role and their rank's role, and no "community" role. |
| Roles.RoleSwitchUnlinked | DiscordResponder.py:2058-2087 | After the switch an unlinked user holds "community" and no clan or rank role. |
| Lookups.NicknameAvailable | DiscordResponder.py:2192-2200 | A nickname is available exactly when no user displays it. |
| Lookups.RoleCheck | DiscordResponder.py:2182-2189 | True exactly when some held role has the requested name. |
| Lookups.HelpEmojiToCategory | DiscordResponder.py:1702-1706 | None exactly when no category has the emoji; otherwise the first category that does. |
| Lookups.BeforeBar | DiscordResponder.py:2231-2236 | The prefix before the first bar: a prefix without bars, shorter than the name exactly when the name has a bar, which then follows it. |
| Lookups.PlayerNameStringAsWritten | DiscordResponder.py:2229-2240 | The code as written fails exactly on a name that starts with a bar, and keeps a name without a bar. |
| Lookups.LeadingBarRaises | DiscordResponder.py:2231-2239 | A name made of a bar followed by a note makes the code as written fail. |
| Lookups.PlayerNameString | DiscordResponder.py:2229-2240 | A name without a bar is kept; otherwise the result is the part before the first bar, less one trailing space, and has no bar. |
| Lookups.PlayerNameStringAgrees | DiscordResponder.py:2229-2240 | Wherever the code as written returns, the corrected reading returns the same name. |
| Lookups.PlayerNameStringIdempotent | DiscordResponder.py:2229-2240 | Reading the game name out of an already shortened name changes nothing. |
| Standings.WarMemberStanding | DiscordResponder.py:1062-1098 | One line: a score exactly for a roster member of a running or ended war, and then the member's war score; "not found in war" exactly for a non-member outside "not in war", on a line carrying the asker's name; a member during preparation gets the "war has not started" note; the "not in war" note comes first. |
| Standings.OutsiderDuringPreparation | DiscordResponder.py:1071-1082 | A non-member is told "not found in war" even while the war is in preparation. |
| Standings.ScoreAll | DiscordResponder.py:1116-1120 | One scored entry per roster member, in roster order, each the member's war score. |
| Standings.WarAllMemberStanding | DiscordResponder.py:1101-1130 | A single note outside a running or ended war; otherwise scored lines, best score first, that are the roster members' score lines reordered, one per member. |
| Standings.SortedFieldsOrdered | DiscordResponder.py:1123-1130 | Lines made from a list sorted best first are all scores and ordered best first. |
| Standings.SortedFields | DiscordResponder.py:1116-1130 | Sorting member scores best first and listing them gives best-first lines that are exactly those scores' lines, reordered. |
| Standings.LinesWithScoreOfFields | DiscordResponder.py:1123-1130 | The lines showing a score are the lines of the members with that score, in the same order. |
| Standings.WarAllMemberStandingStable | DiscordResponder.py:1123-1130 | In the listed lines of a running or ended war, the lines showing any one score are the roster's members with that score, in roster order. |
| Sorting.SortDesc | DiscordResponder.py:1123-1124 | The result is a permutation of the input ordered by non-increasing key. |
| Sorting.InsertMapPermutes | DiscordResponder.py:1123-1124 | Inserting an element into a sorted list adds exactly one image of it to the images of the list, whatever the elements are mapped to. |
| Sorting.SortDescMapPermutes | DiscordResponder.py:1123-1130 | The sorted list, mapped element by element, gives the same images as the input, multiplicities included. |
| Sorting.SortDescStable | DiscordResponder.py:1123-1124 | For every key value, the elements with that key keep their original order. |

## Left out

- Network access is not modelled: `get_player`, `get_clan`, `get_war`, `get_cwl_group`, `verify_token`, the `await` loop inside `donation` and the `async for` over the group's wars in `cwl_clan_scoreboard` and `cwl_clan_member_scoreboard_list`. Their results are inputs.
- `math.log` is a parameter `logBase`, because it is transcendental; nothing is proved about its values beyond what a lemma assumes.
- `string_date_time` reads the wall clock. `date_time_calculator` takes the difference in whole seconds; sub-second parts are dropped.
- `string_scoreboard`, `war_clan_scoreboard` and the `round(score, 3)` of the standings are display formatting. Standings carry exact scores.
- `clan_lineup` and `active_super_troop_search` fetch each member's profile with `get_player`; the models take the fetched profiles, in member order, as a sequence.
- `active_super_troop_search` looks the troop up with coc.py's `Player.get_troop`, which is library code; the model takes that lookup as the parameter `getTroop`.
- `cwl_clan_member_scoreboard_list` reads the group's wars with `get_wars_for_clan`; the model takes them as a sequence. When the group lists no clan with the tag, the source fails on an unbound name; the model returns None.
- `player_active_super_troops` reads `player_obj.troops`, whose contents and order the coc.py library decides; the model takes that list as a sequence of units.
- The unit-name catalogues (`coc_utils.get_*_order`) and the coc.py unit objects are library code and are passed in as sequences and records.
- The embeds, help texts, verification commands and other Discord SDK calls of `DiscordResponder.py`, and the slash commands of `ClashDiscord/cogs/superuser.py`, are message formatting and routing.
- The root-level `ClashResponder.py` and the legacy league scoring in `DiscordResponder.py` rely on player, clan and war modules that are not part of this model.
- Python's `str.lower()` is modelled on ASCII letters only; other scripts are compared as they are.
- Town halls above 14 raise a KeyError in the lineups; the model requires levels 1..14.
- An attack whose defender is not on the opposing roster makes `attack_score` raise; the model requires every defender to be known.
- WarScoring.AttackScore: states that the points are weighed against some opponent with the attacked tag, not necessarily the first one `find_defender` returns; the two agree when tags are unique.
- Roles.RoleSwitch: for a linked account the contract states which roles are added and removed but not their order in the lists (old clan role, then the community roles, then the old rank role) nor how often "community" repeats; RoleSwitchSettles states what the switch achieves.
- Roles.ClearedRoles: the contracts state which roles are removed without an account and how often (ClearedRolesCount, RoleSwitchUnlinkedCount), but not their order in the list (per held role in held order, its clan copies before its rank copy).
- Stars, destruction and scores are exact rationals (Dafny `real`), not Python floats. The source's floating-point scores can differ where the exact ones tie, or tie where the exact ones differ, so members with such scores may be listed in another order than the model's stable sort gives.

## Findings

| source | as written | input that shows it | evidently intended | confidence | as-written member | corrected member |
|---|---|---|---|---|---|---|
| DiscordResponder.py:2229-2240 | The last character of the part before the first bar is read even when that part is empty, which raises an IndexError. | A display name made of a bar followed by "note". | A name starting with a bar yields the empty game name. | high, not executed | Lookups.PlayerNameStringAsWritten | Lookups.PlayerNameString |

=== FILE: cwl_scoring.dfy ===
/**
 * Clan War League scoring: a member's participation-weighted score over
 * the finished rounds, the clan's league scoreboard, and the round a
 * league war belongs to.
 * Source: ClashDiscord/responders/ClashResponder.py, cwl_member_score,
 * cwl_clan_scoreboard and cwl_current_round.
 */
module CwlScoring {
  import opened Optional
  import opened Seqs
  import opened WarModel
  import opened WarScoring

  /** The war tag of a league round in which the clan has no opponent. */
  const NoPairingTag := "#0"

  datatype ScoredCwlMember = ScoredCwlMember(
    tag: string,
    name: string,
    participatedWars: nat,
    potentialAttackCount: nat,
    attackCount: nat,
    stars: int,
    destruction: real,
    roundScores: seq<real>,
    score: real)

  /** A round that enters the score: it has a pairing and its war has ended. */
  predicate Counted(war: War)
  {
    war.warTag != NoPairingTag && war.state == WarEnded
  }

  predicate WarsReady(wars: seq<War>, tag: string)
  {
    forall w :: w in wars && Counted(w) ==> MemberReady(w, tag)
  }

  /** The member's war score in one round, or nothing when they were not on the roster. */
  function RoundResult(war: War, tag: string): Option<ScoredWarMember>
    requires MemberReady(war, tag)
  {
    match FindMember(war.clan.members, tag)
    case None => None
    case Some(m) => Some(MemberScore(m, war))
  }

  /** The round's entry in round_scores: the member's war score, 0 when absent. */
  function RoundScore(war: War, tag: string): real
    requires MemberReady(war, tag)
  {
    match RoundResult(war, tag)
    case None => 0.0
    case Some(s) => s.score
  }

  /** The counted rounds of a schedule, in schedule order. */
  function Rounds(wars: seq<War>): (r: seq<War>)
    ensures |r| <= |wars|
    ensures forall w :: w in r ==> w in wars && Counted(w)
  {
    if |wars| == 0 then []
    else if Counted(wars[0]) then [wars[0]] + Rounds(wars[1..])
    else Rounds(wars[1..])
  }

  /** The counted rounds are exactly the schedule filtered by Counted, in order. */
  lemma {:induction false} RoundsIsFilter(wars: seq<War>)
    ensures Rounds(wars) == Filter(Counted, wars)
    ensures IsSubseq(Rounds(wars), wars)
    decreases |wars|
  {
    if |wars| > 0 {
      RoundsIsFilter(wars[1..]);
    }
    FilterIsSubseq(Counted, wars);
  }

  // References over the counted rounds.

  function RoundScores(rounds: seq<War>, tag: string): (r: seq<real>)
    requires forall w :: w in rounds ==> MemberReady(w, tag)
    ensures |r| == |rounds|
    ensures forall i :: 0 <= i < |rounds| ==> r[i] == RoundScore(rounds[i], tag)
  {
    if |rounds| == 0 then [] else [RoundScore(rounds[0], tag)] + RoundScores(rounds[1..], tag)
  }

  /** The member's war scores in the rounds they took part in, in round order. */
  function Participations(rounds: seq<War>, tag: string): (r: seq<ScoredWarMember>)
    requires forall w :: w in rounds ==> MemberReady(w, tag)
    ensures |r| <= |rounds|
  {
    if |rounds| == 0 then []
    else
      match RoundResult(rounds[0], tag)
      case None => Participations(rounds[1..], tag)
      case Some(s) => [s] + Participations(rounds[1..], tag)
  }

  function AttackTotal(scores: seq<ScoredWarMember>): nat
  {
    if |scores| == 0 then 0 else scores[0].attackCount + AttackTotal(scores[1..])
  }

  function StarTotal(scores: seq<ScoredWarMember>): int
  {
    if |scores| == 0 then 0 else scores[0].stars + StarTotal(scores[1..])
  }

  function DestructionTotal(scores: seq<ScoredWarMember>): real
  {
    if |scores| == 0 then 0.0 else scores[0].destruction + DestructionTotal(scores[1..])
  }

  function ScoreTotal(scores: seq<ScoredWarMember>): real
  {
    if |scores| == 0 then 0.0 else scores[0].score + ScoreTotal(scores[1..])
  }

  /** The loop of cwl_member_score over the wars, skipping unpaired and unfinished ones. */
  function Collect(wars: seq<War>, tag: string, acc: ScoredCwlMember): (r: ScoredCwlMember)
    requires WarsReady(wars, tag)
    ensures r.tag == acc.tag && r.name == acc.name && r.score == acc.score
    ensures r.roundScores == acc.roundScores + RoundScores(Rounds(wars), tag)
    ensures r.participatedWars == acc.participatedWars + |Participations(Rounds(wars), tag)|
    ensures r.potentialAttackCount == acc.potentialAttackCount + |Participations(Rounds(wars), tag)|
    ensures r.attackCount == acc.attackCount + AttackTotal(Participations(Rounds(wars), tag))
    ensures r.stars == acc.stars + StarTotal(Participations(Rounds(wars), tag))
    ensures r.destruction == acc.destruction + DestructionTotal(Participations(Rounds(wars), tag))
  {
    if |wars| == 0 then acc
    else
      var war := wars[0];
      assert forall w :: w in wars[1..] ==> w in wars;
      if war.warTag == NoPairingTag || war.state != WarEnded then
        assert Rounds(wars) == Rounds(wars[1..]);
        Collect(wars[1..], tag, acc)
      else
        assert Rounds(wars) == [war] + Rounds(wars[1..]);
        assert MemberReady(war, tag);
        var later := RoundScores(Rounds(wars[1..]), tag);
        assert RoundScores(Rounds(wars), tag) == [RoundScore(war, tag)] + later;
        assert acc.roundScores + RoundScores(Rounds(wars), tag)
            == (acc.roundScores + [RoundScore(war, tag)]) + later;
        match RoundResult(war, tag)
        case None =>
          Collect(wars[1..], tag, acc.(roundScores := acc.roundScores + [0.0]))
        case Some(s) =>
          Collect(wars[1..], tag, acc.(
            participatedWars := acc.participatedWars + 1,
            potentialAttackCount := acc.potentialAttackCount + 1,
            attackCount := acc.attackCount + s.attackCount,
            stars := acc.stars + s.stars,
            destruction := acc.destruction + s.destruction,
            roundScores := acc.roundScores + [s.score]))
  }

  /** The average of `count` values adding up to `total`. */
  function Mean(total: real, count: nat): real
    requires count > 0
  {
    total / count as real
  }

  /** An average scaled by the participation weight. */
  function Weighted(average: real, multiplier: real): real
  {
    average * multiplier
  }

  /** The participation weight: log base (all wars) of the wars attended, 1 with fewer than two wars. */
  function ParticipationMultiplier(participated: nat, totalWars: nat, logBase: (nat, nat) -> real): real
  {
    if totalWars >= 2 then logBase(participated, totalWars) else 1.0
  }

  /**
   * cwl_member_score. `logBase(x, b)` stands for the logarithm of x to base b.
   * The multiplier's base is the length of `wars` as passed in, skipped
   * rounds included.
   */
  function CwlMemberScore(wars: seq<War>, member: ClanMember, logBase: (nat, nat) -> real): (r: ScoredCwlMember)
    requires WarsReady(wars, member.tag)
    ensures r.tag == member.tag && r.name == member.name
    ensures r.roundScores == RoundScores(Rounds(wars), member.tag)
    ensures r.participatedWars == r.potentialAttackCount
    ensures r.participatedWars == |Participations(Rounds(wars), member.tag)| <= |r.roundScores|
    ensures r.attackCount == AttackTotal(Participations(Rounds(wars), member.tag))
    ensures r.stars == StarTotal(Participations(Rounds(wars), member.tag))
    ensures r.destruction == DestructionTotal(Participations(Rounds(wars), member.tag))
    ensures r.participatedWars == 0 ==> r.score == 0.0
    ensures r.participatedWars > 0 ==>
              r.score == Weighted(Mean(SumReals(r.roundScores), r.participatedWars),
                                 ParticipationMultiplier(r.participatedWars, |wars|, logBase))
  {
    var start := ScoredCwlMember(member.tag, member.name, 0, 0, 0, 0, 0.0, [], 0.0);
    Finish(Collect(wars, member.tag, start), |wars|, logBase)
  }

  /** The end of cwl_member_score: keep the collected record, or average and weigh its round scores. */
  function Finish(collected: ScoredCwlMember, totalWars: nat, logBase: (nat, nat) -> real): (r: ScoredCwlMember)
    ensures r == collected.(score := r.score)
    ensures collected.participatedWars == 0 ==> r.score == collected.score
    ensures collected.participatedWars > 0 ==>
              r.score == Weighted(Mean(SumReals(collected.roundScores), collected.participatedWars),
                                  ParticipationMultiplier(collected.participatedWars, totalWars, logBase))
  {
    if collected.participatedWars == 0 then collected
    else
      var average := Mean(SumReals(collected.roundScores), collected.participatedWars);
      collected.(score := Weighted(average, ParticipationMultiplier(collected.participatedWars, totalWars, logBase)))
  }

  /**
   * The average in cwl_member_score is over the attended rounds only:
   * the rounds the member missed add 0 to the sum.
   */
  lemma CwlMemberScoreAveragesAttended(wars: seq<War>, member: ClanMember, logBase: (nat, nat) -> real)
    requires WarsReady(wars, member.tag)
    ensures var r := CwlMemberScore(wars, member, logBase);
            r.participatedWars > 0 ==>
              r.score == Weighted(Mean(ScoreTotal(Participations(Rounds(wars), member.tag)), r.participatedWars),
                                 ParticipationMultiplier(r.participatedWars, |wars|, logBase))
  {
    var r := CwlMemberScore(wars, member, logBase);
    var attended := Participations(Rounds(wars), member.tag);
    RoundScoresSum(Rounds(wars), member.tag);
    assert SumReals(r.roundScores) == ScoreTotal(attended);
    if r.participatedWars > 0 {
      assert Mean(SumReals(r.roundScores), r.participatedWars) == Mean(ScoreTotal(attended), r.participatedWars);
    }
  }

  /** Absent rounds contribute 0, so the round scores add up to the scores of the attended rounds. */
  lemma {:induction false} RoundScoresSum(rounds: seq<War>, tag: string)
    requires forall w :: w in rounds ==> MemberReady(w, tag)
    ensures SumReals(RoundScores(rounds, tag)) == ScoreTotal(Participations(rounds, tag))
    decreases |rounds|
  {
    if |rounds| > 0 {
      RoundScoresSum(rounds[1..], tag);
      var rs := RoundScores(rounds, tag);
      assert rs[1..] == RoundScores(rounds[1..], tag);
    }
  }

  lemma {:induction false} FullParticipation(rounds: seq<War>, tag: string)
    requires forall w :: w in rounds ==> MemberReady(w, tag)
    requires forall w :: w in rounds ==> FindMember(w.clan.members, tag).Some?
    ensures |Participations(rounds, tag)| == |rounds|
    decreases |rounds|
  {
    if |rounds| > 0 {
      assert rounds[0] in rounds;
      FullParticipation(rounds[1..], tag);
    }
  }

  /**
   * A member who took part in every war, all of them finished and paired,
   * is not discounted: given log_n(n) = 1 the score is the plain average.
   */
  lemma FullAttendanceNotDiscounted(wars: seq<War>, member: ClanMember, logBase: (nat, nat) -> real)
    requires |wars| > 0
    requires forall w :: w in wars ==> Counted(w) && MemberReady(w, member.tag)
    requires forall w :: w in wars ==> FindMember(w.clan.members, member.tag).Some?
    requires logBase(|wars|, |wars|) == 1.0
    ensures WarsReady(wars, member.tag)
    ensures CwlMemberScore(wars, member, logBase).participatedWars == |wars|
    ensures CwlMemberScore(wars, member, logBase).score
            == SumReals(CwlMemberScore(wars, member, logBase).roundScores) / |wars| as real
  {
    var rounds := Rounds(wars);
    RoundsAll(wars);
    FullParticipation(rounds, member.tag);
    RoundScoresSum(rounds, member.tag);
  }

  /** With fewer than two wars the participation weight is 1: the score is the plain average. */
  lemma FewWarsNotDiscounted(wars: seq<War>, member: ClanMember, logBase: (nat, nat) -> real)
    requires |wars| < 2
    requires WarsReady(wars, member.tag)
    ensures var r := CwlMemberScore(wars, member, logBase);
            r.participatedWars > 0 ==> r.score == SumReals(r.roundScores) / r.participatedWars as real
  {
  }

  lemma {:induction false} RoundsAll(wars: seq<War>)
    requires forall w :: w in wars ==> Counted(w)
    ensures Rounds(wars) == wars
    decreases |wars|
  {
    if |wars| > 0 {
      assert wars[0] in wars;
      RoundsAll(wars[1..]);
      assert wars == [wars[0]] + wars[1..];
    }
  }

  lemma {:induction false} NoParticipation(rounds: seq<War>, tag: string)
    requires forall w :: w in rounds ==> FindMember(w.clan.members, tag).None?
    ensures forall w :: w in rounds ==> MemberReady(w, tag)
    ensures Participations(rounds, tag) == []
    decreases |rounds|
  {
    if |rounds| > 0 {
      assert rounds[0] in rounds;
      NoParticipation(rounds[1..], tag);
    }
  }

  // ---------------------------------------------------- member scoreboard

  predicate Ended(war: War)
  {
    war.state == WarEnded
  }

  /** The wars of a schedule that have ended, in schedule order. */
  function EndedWars(wars: seq<War>): (r: seq<War>)
    ensures IsSubseq(r, wars)
    ensures forall w :: w in r <==> w in wars && Ended(w)
  {
    FilterIsSubseq(Ended, wars);
    Filter(Ended, wars)
  }

  /** The first clan of a league group carrying `tag`, if any. */
  function FindCwlClan(clans: seq<CwlClan>, tag: string): (r: Option<CwlClan>)
    ensures r.None? <==> forall i :: 0 <= i < |clans| ==> clans[i].tag != tag
    ensures r.Some? ==> r.value in clans && r.value.tag == tag
    ensures r.Some? ==> exists i :: 0 <= i < |clans| && clans[i] == r.value
                                    && forall j :: 0 <= j < i ==> clans[j].tag != tag
  {
    if |clans| == 0 then None
    else if clans[0].tag == tag then Some(clans[0])
    else
      var r := FindCwlClan(clans[1..], tag);
      assert r.Some? ==> exists i :: 0 <= i < |clans| && clans[i] == r.value
                                    && forall j :: 0 <= j < i ==> clans[j].tag != tag by {
        if r.Some? {
          var i :| 0 <= i < |clans[1..]| && clans[1..][i] == r.value
                   && forall j :: 0 <= j < i ==> clans[1..][j].tag != tag;
          assert clans[i + 1] == r.value;
          assert forall j :: 0 <= j < i + 1 ==> clans[j].tag != tag by {
            forall j | 0 <= j < i + 1 ensures clans[j].tag != tag {
              if j > 0 { assert clans[j] == clans[1..][j - 1]; }
            }
          }
        }
      }
      r
  }

  /** Every member of the clan can be scored over `wars`. */
  predicate ClanReady(wars: seq<War>, clan: CwlClan)
  {
    forall j :: 0 <= j < |clan.members| ==> WarsReady(wars, clan.members[j].tag)
  }

  /** Every member of a roster, scored over `wars`, in roster order. */
  function ScoreMembers(wars: seq<War>, members: seq<ClanMember>, logBase: (nat, nat) -> real): (r: seq<ScoredCwlMember>)
    requires forall j :: 0 <= j < |members| ==> WarsReady(wars, members[j].tag)
    ensures |r| == |members|
    ensures forall j :: 0 <= j < |members| ==> r[j] == CwlMemberScore(wars, members[j], logBase)
  {
    seq(|members|, j requires 0 <= j < |members| => CwlMemberScore(wars, members[j], logBase))
  }

  predicate Participated(s: ScoredCwlMember)
  {
    s.participatedWars != 0
  }

  /**
   * cwl_clan_member_scoreboard_list: the clan's members scored over the
   * ended wars only, in roster order, leaving out whoever took part in none.
   * None stands for the crash when the group lists no clan with the tag.
   */
  function CwlClanMemberScoreboardList(wars: seq<War>, clans: seq<CwlClan>, clanTag: string,
                                       logBase: (nat, nat) -> real): (r: Option<seq<ScoredCwlMember>>)
    requires FindCwlClan(clans, clanTag).Some? ==> ClanReady(EndedWars(wars), FindCwlClan(clans, clanTag).value)
    ensures r.None? <==> forall i :: 0 <= i < |clans| ==> clans[i].tag != clanTag
    ensures r.Some? ==>
              var scored := ScoreMembers(EndedWars(wars), FindCwlClan(clans, clanTag).value.members, logBase);
              && IsSubseq(r.value, scored)
              && (forall s :: s in r.value <==> s in scored && s.participatedWars > 0)
              && (forall s :: multiset(r.value)[s] == if s.participatedWars > 0 then multiset(scored)[s] else 0)
  {
    match FindCwlClan(clans, clanTag)
    case None => None
    case Some(clan) =>
      var scored := ScoreMembers(EndedWars(wars), clan.members, logBase);
      FilterIsSubseq(Participated, scored);
      Some(Filter(Participated, scored))
  }

  /** A war still in preparation or in progress changes nobody's entry, the multiplier's base included. */
  lemma UnfinishedWarIgnored(wars: seq<War>, war: War, clans: seq<CwlClan>, clanTag: string,
                             logBase: (nat, nat) -> real)
    requires !Ended(war)
    requires FindCwlClan(clans, clanTag).Some? ==> ClanReady(EndedWars(wars), FindCwlClan(clans, clanTag).value)
    ensures EndedWars(wars + [war]) == EndedWars(wars)
    ensures CwlClanMemberScoreboardList(wars + [war], clans, clanTag, logBase)
            == CwlClanMemberScoreboardList(wars, clans, clanTag, logBase)
  {
    FilterAppend(Ended, wars, [war]);
    assert Filter(Ended, [war]) == [];
  }

  /** A member on the roster of no ended war has no entry. */
  lemma AbsentMemberNotListed(wars: seq<War>, clans: seq<CwlClan>, clanTag: string,
                              logBase: (nat, nat) -> real, member: ClanMember)
    requires FindCwlClan(clans, clanTag).Some? ==> ClanReady(EndedWars(wars), FindCwlClan(clans, clanTag).value)
    requires forall w :: w in wars && Ended(w) ==> FindMember(w.clan.members, member.tag).None?
    ensures WarsReady(EndedWars(wars), member.tag)
    ensures CwlMemberScore(EndedWars(wars), member, logBase).participatedWars == 0
    ensures CwlClanMemberScoreboardList(wars, clans, clanTag, logBase).Some? ==>
              CwlMemberScore(EndedWars(wars), member, logBase)
              !in CwlClanMemberScoreboardList(wars, clans, clanTag, logBase).value
  {
    var ended := EndedWars(wars);
    NoParticipation(Rounds(ended), member.tag);
  }

  // ------------------------------------------------------------ scoreboard

  datatype CwlScoreboardClan = CwlScoreboardClan(clanTag: string, stars: int, destruction: real)

  /** Extra stars for every war the clan won. */
  const WinBonus := 10

  const WonStatus := "won"

  /** Stars of the clan's side over the ended wars. */
  function EndedStars(wars: seq<War>): int
  {
    if |wars| == 0 then 0
    else
      var last := wars[|wars| - 1];
      EndedStars(wars[..|wars| - 1]) + (if last.state == WarEnded then last.clan.stars else 0)
  }

  /** Destruction of the clan's side over the ended wars. */
  function EndedDestruction(wars: seq<War>): real
  {
    if |wars| == 0 then 0.0
    else
      var last := wars[|wars| - 1];
      EndedDestruction(wars[..|wars| - 1]) + (if last.state == WarEnded then last.clan.destruction else 0.0)
  }

  /** The wars recorded as won, whatever their state. */
  function WonCount(wars: seq<War>): nat
  {
    if |wars| == 0 then 0
    else WonCount(wars[..|wars| - 1]) + (if wars[|wars| - 1].status == WonStatus then 1 else 0)
  }

  /** cwl_clan_scoreboard over the clan's league wars. */
  method CwlClanScoreboard(clanTag: string, wars: seq<War>) returns (r: CwlScoreboardClan)
    ensures r.clanTag == clanTag
    ensures r.stars == EndedStars(wars) + WinBonus * WonCount(wars)
    ensures r.destruction == EndedDestruction(wars)
  {
    var stars := 0;
    var destruction := 0.0;
    var i := 0;
    while i < |wars|
      invariant 0 <= i <= |wars|
      invariant stars == EndedStars(wars[..i]) + WinBonus * WonCount(wars[..i])
      invariant destruction == EndedDestruction(wars[..i])
    {
      var war := wars[i];
      assert wars[..i + 1][..i] == wars[..i];
      if war.state == WarEnded {
        stars := stars + war.clan.stars;
        destruction := destruction + war.clan.destruction;
      }
      if war.status == WonStatus {
        stars := stars + WinBonus;
      }
      i := i + 1;
    }
    assert wars[..|wars|] == wars;
    r := CwlScoreboardClan(clanTag, stars, destruction);
  }

  /** The scoreboard adds up round by round: the totals of two schedules concatenated are their sums. */
  lemma {:induction false} ScoreboardAdditive(a: seq<War>, b: seq<War>)
    ensures EndedStars(a + b) == EndedStars(a) + EndedStars(b)
    ensures EndedDestruction(a + b) == EndedDestruction(a) + EndedDestruction(b)
    ensures WonCount(a + b) == WonCount(a) + WonCount(b)
    decreases |b|
  {
    if |b| == 0 {
      assert a + b == a;
    } else {
      var b' := b[..|b| - 1];
      assert (a + b)[..|a + b| - 1] == a + b';
      assert (a + b)[|a + b| - 1] == b[|b| - 1];
      ScoreboardAdditive(a, b');
    }
  }

  /** A war recorded as won earns the bonus even when it is not in the ended state. */
  lemma WonBonusOutsideEndedGuard(war: War)
    requires war.status == WonStatus && war.state != WarEnded
    ensures EndedStars([war]) + WinBonus * WonCount([war]) == WinBonus
    ensures EndedDestruction([war]) == 0.0
  {
    assert [war][..0] == [];
  }

  // ---------------------------------------------------------- current round

  /** cwl_current_round: the 1-based number of the first round listing the war tag. */
  method CwlCurrentRound(rounds: seq<seq<string>>, warTag: string) returns (r: Option<nat>)
    ensures r.None? <==> forall i :: 0 <= i < |rounds| ==> warTag !in rounds[i]
    ensures r.Some? ==> 1 <= r.value <= |rounds| && warTag in rounds[r.value - 1]
                        && forall i :: 0 <= i < r.value - 1 ==> warTag !in rounds[i]
  {
    var roundIndex := 0;
    while roundIndex < |rounds|
      invariant 0 <= roundIndex <= |rounds|
      invariant forall i :: 0 <= i < roundIndex ==> warTag !in rounds[i]
    {
      roundIndex := roundIndex + 1;
      if warTag in rounds[roundIndex - 1] {
        return Some(roundIndex);
      }
    }
    return None;
  }
}

=== FILE: donation.dfy ===
/**
 * Who in a clan can donate a requested troop or spell, and at what level.
 * Source: ClashDiscord/responders/ClashResponder.py, donation,
 * clan_donation_upgrade and active_super_troop_search.
 */
module Donation {
  import opened Optional
  import opened Seqs
  import opened Units

  /** A clan member holding the requested unit. */
  datatype Donor = Donor(player: Player, unit: Unit)

  /** Levels a clan adds to donated units: 0 below level 5, 1 below level 10, else 2. */
  function ClanDonationUpgrade(clanLevel: int): (r: nat)
    ensures r <= 2
    ensures r == 0 <==> clanLevel < 5
    ensures r == 2 <==> clanLevel >= 10
  {
    if clanLevel < 5 then 0
    else if clanLevel < 10 then 1
    else 2
  }

  lemma ClanDonationUpgradeMonotone(l1: int, l2: int)
    requires l1 <= l2
    ensures ClanDonationUpgrade(l1) <= ClanDonationUpgrade(l2)
  {
  }

  /**
   * The catalogue name of a donatable unit: home troops are tried first,
   * then spells; heroes, pets and the rest never resolve.
   */
  function DonatableName(unitName: string, homeTroopNames: seq<string>, spellNames: seq<string>): (r: Option<string>)
    ensures r.Some? ==> r.value in homeTroopNames || r.value in spellNames
    ensures r.None? <==> FindName(unitName, homeTroopNames).None? && FindName(unitName, spellNames).None?
    ensures r.Some? ==> SameName(r.value, unitName)
    ensures FindName(unitName, homeTroopNames).Some? ==> r == FindName(unitName, homeTroopNames)
  {
    var troop := FindName(unitName, homeTroopNames);
    if troop.Some? then troop else FindName(unitName, spellNames)
  }

  /** Whether a member holds the unit. */
  function Holds(unitName: string): Player -> bool
  {
    p => FindPlayerUnit(p, unitName).Some?
  }

  /** Whether the troop `getTroop` finds on a member is there and boosted. */
  function HasActiveTroop(getTroop: Player -> Option<Unit>): Player -> bool
  {
    p => getTroop(p).Some? && getTroop(p).value.isActive
  }

  /**
   * active_super_troop_search: the members, as fetched profiles in member
   * order, on whom coc.py's get_troop (the parameter `getTroop`) finds the
   * super troop boosted.
   */
  function ActiveSuperTroopSearch(players: seq<Player>, getTroop: Player -> Option<Unit>): (r: seq<Player>)
    ensures IsSubseq(r, players)
    ensures forall p :: p in r <==> p in players && getTroop(p).Some? && getTroop(p).value.isActive
    ensures forall p :: getTroop(p).Some? && getTroop(p).value.isActive ==> multiset(r)[p] == multiset(players)[p]
  {
    FilterIsSubseq(HasActiveTroop(getTroop), players);
    Filter(HasActiveTroop(getTroop), players)
  }

  /** The members holding the unit, in member order, with the unit they hold. */
  function Holders(players: seq<Player>, unitName: string): (r: seq<Donor>)
    ensures |r| <= |players|
    ensures forall d :: d in r <==> d.player in players && FindPlayerUnit(d.player, unitName) == Some(d.unit)
  {
    if |players| == 0 then []
    else
      var rest := Holders(players[1..], unitName);
      assert forall p :: p in players <==> p == players[0] || p in players[1..];
      match FindPlayerUnit(players[0], unitName)
      case Some(u) => [Donor(players[0], u)] + rest
      case None => rest
  }

  /** The members behind a list of donors, in the same order. */
  function DonorPlayers(ds: seq<Donor>): (r: seq<Player>)
    ensures |r| == |ds|
    ensures forall i :: 0 <= i < |ds| ==> r[i] == ds[i].player
  {
    if |ds| == 0 then [] else [ds[0].player] + DonorPlayers(ds[1..])
  }

  /**
   * The holders are listed one per holding member, in member order: their
   * members are exactly the clan's members filtered to those holding the unit.
   */
  lemma {:induction false} HoldersInClanOrder(players: seq<Player>, unitName: string)
    ensures DonorPlayers(Holders(players, unitName)) == Filter(Holds(unitName), players)
    decreases |players|
  {
    if |players| > 0 {
      HoldersInClanOrder(players[1..], unitName);
      var rest := Holders(players[1..], unitName);
      match FindPlayerUnit(players[0], unitName)
      case Some(u) =>
        assert Holds(unitName)(players[0]);
        var r := [Donor(players[0], u)] + rest;
        assert Holders(players, unitName) == r;
        assert r[1..] == rest;
      case None =>
        assert !Holds(unitName)(players[0]);
    }
  }

  /**
   * The first holder listed is the first member, in member order, who holds
   * the unit; nobody is listed exactly when no member holds it.
   */
  lemma HoldersFirst(players: seq<Player>, unitName: string)
    ensures var r := Holders(players, unitName);
            |r| > 0 ==> exists k :: 0 <= k < |players| && players[k] == r[0].player
                                   && forall j :: 0 <= j < k ==> FindPlayerUnit(players[j], unitName).None?
    ensures |Holders(players, unitName)| == 0 <==> forall j :: 0 <= j < |players| ==> FindPlayerUnit(players[j], unitName).None?
  {
    HoldersInClanOrder(players, unitName);
    FilterFirst(Holds(unitName), players);
    var r := Holders(players, unitName);
    var k := FirstWhere(Holds(unitName), players);
    assert |r| == |DonorPlayers(r)|;
    assert forall j :: 0 <= j < |players| ==> (Holds(unitName)(players[j]) <==> FindPlayerUnit(players[j], unitName).Some?);
    if |r| > 0 {
      assert r[0].player == DonorPlayers(r)[0] == players[k];
    }
  }

  /** The highest level among the holders. */
  function DonorMax(holders: seq<Donor>): (r: int)
    requires |holders| > 0
    ensures forall i :: 0 <= i < |holders| ==> holders[i].unit.level <= r
    ensures exists i :: 0 <= i < |holders| && holders[i].unit.level == r
  {
    if |holders| == 1 then holders[0].unit.level
    else
      var rest := DonorMax(holders[1..]);
      if holders[0].unit.level >= rest then holders[0].unit.level else rest
  }

  predicate DonatesAtMax(d: Donor, upgrade: nat)
  {
    d.unit.level + upgrade >= d.unit.maxLevel
  }

  /**
   * donation: None when the name is neither a home troop nor a spell;
   * otherwise the holders who can donate the unit at its maximum level
   * when the best holder can, and else the holders at the best level held.
   */
  function Donation(clanLevel: int, players: seq<Player>, unitName: string,
                    homeTroopNames: seq<string>, spellNames: seq<string>): (r: Option<seq<Donor>>)
    ensures r.None? <==> DonatableName(unitName, homeTroopNames, spellNames).None?
    ensures r.Some? ==>
              var holders := Holders(players, DonatableName(unitName, homeTroopNames, spellNames).value);
              var upgrade := ClanDonationUpgrade(clanLevel);
              && IsSubseq(r.value, holders)
              && (|holders| == 0 ==> r.value == [])
              && (|holders| > 0 && DonorMax(holders) + upgrade >= holders[0].unit.maxLevel ==>
                    forall d :: d in r.value <==> d in holders && DonatesAtMax(d, upgrade))
              && (|holders| > 0 && DonorMax(holders) + upgrade < holders[0].unit.maxLevel ==>
                    |r.value| > 0 && forall d :: d in r.value <==> d in holders && d.unit.level == DonorMax(holders))
  {
    match DonatableName(unitName, homeTroopNames, spellNames)
    case None => None
    case Some(name) =>
      var holders := Holders(players, name);
      if |holders| == 0 then Some(holders)
      else
        var donorMax := DonorMax(holders);
        var upgrade := ClanDonationUpgrade(clanLevel);
        if donorMax + upgrade >= holders[0].unit.maxLevel then
          var atMax := (d: Donor) => DonatesAtMax(d, upgrade);
          FilterIsSubseq(atMax, holders);
          Some(Filter(atMax, holders))
        else
          var best := (d: Donor) => d.unit.level >= donorMax;
          FilterIsSubseq(best, holders);
          BestHeldNonEmpty(holders, best);
          Some(Filter(best, holders))
  }

  /** Each holder the chosen branch keeps is listed as often as among the holders. */
  lemma DonationKeepsCopies(clanLevel: int, players: seq<Player>, unitName: string,
                            homeTroopNames: seq<string>, spellNames: seq<string>)
    ensures var r := Donation(clanLevel, players, unitName, homeTroopNames, spellNames);
            r.Some? ==>
              var holders := Holders(players, DonatableName(unitName, homeTroopNames, spellNames).value);
              var upgrade := ClanDonationUpgrade(clanLevel);
              && (|holders| > 0 && DonorMax(holders) + upgrade >= holders[0].unit.maxLevel ==>
                    forall d :: multiset(r.value)[d] == if DonatesAtMax(d, upgrade) then multiset(holders)[d] else 0)
              && (|holders| > 0 && DonorMax(holders) + upgrade < holders[0].unit.maxLevel ==>
                    forall d :: multiset(r.value)[d] == if d.unit.level >= DonorMax(holders) then multiset(holders)[d] else 0)
  {
  }

  lemma BestHeldNonEmpty(holders: seq<Donor>, best: Donor -> bool)
    requires |holders| > 0
    requires forall d :: best(d) <==> d.unit.level >= DonorMax(holders)
    ensures |Filter(best, holders)| > 0
    ensures forall d :: d in Filter(best, holders) <==> d in holders && d.unit.level == DonorMax(holders)
  {
    var i :| 0 <= i < |holders| && holders[i].unit.level == DonorMax(holders);
    assert holders[i] in Filter(best, holders);
  }

  /**
   * When every holder reports the same maximum level (the game's maximum
   * for the unit) and the best of them can donate at that level, the list
   * of donors chosen by that branch is never empty.
   */
  lemma MaxBranchNonEmpty(holders: seq<Donor>, upgrade: nat)
    requires |holders| > 0
    requires forall i :: 0 <= i < |holders| ==> holders[i].unit.maxLevel == holders[0].unit.maxLevel
    requires DonorMax(holders) + upgrade >= holders[0].unit.maxLevel
    ensures exists i :: 0 <= i < |holders| && DonatesAtMax(holders[i], upgrade)
  {
    var i :| 0 <= i < |holders| && holders[i].unit.level == DonorMax(holders);
    assert DonatesAtMax(holders[i], upgrade);
  }
}

=== FILE: lookups.dfy ===
/**
 * Small searches of the Discord side: free nicknames, held roles, help
 * categories by emoji, and the game name inside a "name | note" nickname.
 * Source: DiscordResponder.py, nickname_available, role_check,
 * help_emoji_to_category and player_name_string.
 */
module Lookups {
  import opened Optional

  /** nickname_available: no user of the guild shows this display name. */
  function NicknameAvailable(nickname: string, displayNames: seq<string>): (r: bool)
    ensures r <==> forall i :: 0 <= i < |displayNames| ==> displayNames[i] != nickname
  {
    if |displayNames| == 0 then true
    else if nickname == displayNames[0] then false
    else NicknameAvailable(nickname, displayNames[1..])
  }

  /** role_check: the user holds a role with the requested name. */
  function RoleCheck(clientRole: string, userRoles: seq<string>): (r: bool)
    ensures r <==> exists i :: 0 <= i < |userRoles| && userRoles[i] == clientRole
  {
    if |userRoles| == 0 then false
    else if userRoles[0] == clientRole then true
    else
      var rest := RoleCheck(clientRole, userRoles[1..]);
      assert rest <==> exists i :: 1 <= i < |userRoles| && userRoles[i] == clientRole by {
        if rest {
          var i :| 0 <= i < |userRoles[1..]| && userRoles[1..][i] == clientRole;
          assert userRoles[i + 1] == clientRole;
        }
      }
      rest
  }

  /** A command category of the help menu. */
  datatype BotCategory = BotCategory(name: string, emoji: string, description: string)

  /** help_emoji_to_category: the first category shown with this emoji. */
  function HelpEmojiToCategory(emoji: string, categories: seq<BotCategory>): (r: Option<BotCategory>)
    ensures r.None? <==> forall i :: 0 <= i < |categories| ==> categories[i].emoji != emoji
    ensures r.Some? ==> exists i :: 0 <= i < |categories| && categories[i] == r.value && r.value.emoji == emoji
                                    && forall j :: 0 <= j < i ==> categories[j].emoji != emoji
  {
    if |categories| == 0 then None
    else if categories[0].emoji == emoji then Some(categories[0])
    else
      var rest := HelpEmojiToCategory(emoji, categories[1..]);
      assert rest.Some? ==> exists i :: 1 <= i < |categories| && categories[i] == rest.value
                                        && rest.value.emoji == emoji
                                        && forall j :: 0 <= j < i ==> categories[j].emoji != emoji by {
        if rest.Some? {
          var i :| 0 <= i < |categories[1..]| && categories[1..][i] == rest.value && rest.value.emoji == emoji
                   && forall j :: 0 <= j < i ==> categories[1..][j].emoji != emoji;
          assert categories[i + 1] == rest.value;
        }
      }
      rest
  }

  /** The characters of `s` before its first '|'. */
  function BeforeBar(s: string): (r: string)
    ensures |r| <= |s| && r == s[..|r|]
    ensures '|' !in r
    ensures |r| < |s| <==> '|' in s
    ensures |r| < |s| ==> s[|r|] == '|'
  {
    if |s| == 0 || s[0] == '|' then []
    else [s[0]] + BeforeBar(s[1..])
  }

  /**
   * player_name_string as written: the part before the first '|' with its
   * last character dropped when that is a space. The source reads the last
   * character of that part unconditionally, so a name starting with '|'
   * raises an IndexError; that outcome is None here.
   */
  function PlayerNameStringAsWritten(displayName: string): (r: Option<string>)
    ensures r.None? <==> |displayName| > 0 && displayName[0] == '|'
    ensures '|' !in displayName ==> r == Some(displayName)
  {
    if '|' in displayName then
      var chars := BeforeBar(displayName);
      if |chars| == 0 then None
      else if chars[|chars| - 1] == ' ' then Some(chars[..|chars| - 1])
      else Some(chars)
    else
      Some(displayName)
  }

  /** A nickname made only of a note, "|note", makes the source raise. */
  lemma LeadingBarRaises()
    ensures PlayerNameStringAsWritten("|note") == None
  {
  }

  /**
   * player_name_string: a nickname "Name | note" stands for "Name". A name
   * without '|' is kept; otherwise the part before the first '|' is taken
   * and one trailing space dropped, and an empty part stays empty.
   */
  function PlayerNameString(displayName: string): (r: string)
    ensures '|' !in displayName ==> r == displayName
    ensures '|' in displayName ==>
              && '|' !in r
              && var k := |BeforeBar(displayName)|;
                 k < |displayName| && displayName[k] == '|'
                 && (if k > 0 && displayName[k - 1] == ' ' then r == displayName[..k - 1] else r == displayName[..k])
  {
    if '|' in displayName then
      var chars := BeforeBar(displayName);
      if |chars| > 0 && chars[|chars| - 1] == ' ' then chars[..|chars| - 1] else chars
    else
      displayName
  }

  /** Wherever the source returns, the corrected reading agrees with it. */
  lemma PlayerNameStringAgrees(displayName: string)
    ensures PlayerNameStringAsWritten(displayName).Some? ==>
              PlayerNameStringAsWritten(displayName).value == PlayerNameString(displayName)
  {
  }

  /** Reading the game name out of an already shortened name changes nothing. */
  lemma PlayerNameStringIdempotent(displayName: string)
    ensures PlayerNameString(PlayerNameString(displayName)) == PlayerNameString(displayName)
  {
  }
}

=== FILE: optional.dfy ===
/** The absent-or-present value the bot returns where the source returns `None`. */
module Optional {

  datatype Option<+T> = None | Some(value: T)
}

=== FILE: roles.dfy ===
/**
 * Discord role bookkeeping: the add/remove lists that turn a user's
 * current roles into the needed ones, and the clan and rank roles a
 * linked game account calls for.
 * Source: DiscordResponder.py, role_add_remove_list and role_switch.
 */
module Roles {
  import opened Optional
  import opened Seqs

  /** Roles to give and roles to take away, in the order they are listed. */
  datatype RoleChange = RoleChange(add: seq<string>, remove: seq<string>)

  /** The roles a change leaves a user with. */
  function Applied(current: seq<string>, change: RoleChange): set<string>
  {
    (set x | x in current) - (set x | x in change.remove) + (set x | x in change.add)
  }

  /**
   * role_add_remove_list: the needed roles the user lacks, in needed order,
   * and the held roles that are not needed, in current order.
   */
  function RoleAddRemoveList<T(==,!new)>(needed: seq<T>, current: seq<T>): (r: (seq<T>, seq<T>))
    ensures IsSubseq(r.0, needed) && IsSubseq(r.1, current)
    ensures forall x :: x in r.0 <==> x in needed && x !in current
    ensures forall x :: x in r.1 <==> x in current && x !in needed
    ensures forall x :: multiset(r.0)[x] == if x in current then 0 else multiset(needed)[x]
    ensures forall x :: multiset(r.1)[x] == if x in needed then 0 else multiset(current)[x]
  {
    var missing := (x: T) => x !in current;
    var surplus := (x: T) => x !in needed;
    FilterIsSubseq(missing, needed);
    FilterIsSubseq(surplus, current);
    (Filter(missing, needed), Filter(surplus, current))
  }

  /** Applying the lists to the current roles yields exactly the needed ones. */
  lemma AddRemoveReachesNeeded(needed: seq<string>, current: seq<string>)
    ensures var (add, remove) := RoleAddRemoveList(needed, current);
            Applied(current, RoleChange(add, remove)) == set x | x in needed
  {
  }

  /** Nothing to do when the user already holds exactly the needed roles. */
  lemma AddRemoveEqualIsEmpty<T(!new)>(roles: seq<T>)
    ensures RoleAddRemoveList(roles, roles) == ([], [])
  {
  }

  // ----------------------------------------------------------- role switch

  const Leader := "leader"
  const CoLeader := "co-leader"
  const Elder := "elder"
  const Member := "member"
  const Uninitiated := "uninitiated"
  const Community := "community"

  /** The Discord roles that stand for a rank inside a clan. */
  predicate IsRankRole(role: string)
  {
    role == Leader || role == CoLeader || role == Elder || role == Member || role == Uninitiated
  }

  /** The game's clan rank as a Discord role; an unknown rank maps to "uninitiated". */
  function RankRole(gameRole: string): (r: string)
    ensures IsRankRole(r)
    ensures gameRole == "leader" <==> r == Leader
    ensures gameRole == "coLeader" <==> r == CoLeader
    ensures gameRole == "admin" <==> r == Elder
    ensures gameRole == "member" <==> r == Member
  {
    if gameRole == "leader" then Leader
    else if gameRole == "coLeader" then CoLeader
    else if gameRole == "admin" then Elder
    else if gameRole == "member" then Member
    else Uninitiated
  }

  /** The linked account of a user: its clan's name (None outside a clan) and its rank there. */
  datatype ClanPlayer = ClanPlayer(clan: Option<string>, gameRole: string)

  /** The last element of `s` satisfying `f`; the loops keep overwriting until the end. */
  function LastWhere(f: string -> bool, s: seq<string>): (r: Option<string>)
    ensures r.None? <==> forall i :: 0 <= i < |s| ==> !f(s[i])
    ensures r.Some? ==> exists i :: 0 <= i < |s| && s[i] == r.value && f(s[i])
                                    && forall j :: i < j < |s| ==> !f(s[j])
  {
    if |s| == 0 then None
    else if f(s[|s| - 1]) then Some(s[|s| - 1])
    else LastWhere(f, s[..|s| - 1])
  }

  /** The clan role the clan loop settles on: the last held role naming one of the clans. */
  function OldClan(userRoles: seq<string>, clanNames: seq<string>): Option<string>
  {
    LastWhere(x => x in clanNames, userRoles)
  }

  /** The rank role the rank loop settles on: the last held rank role. */
  function OldRank(userRoles: seq<string>): Option<string>
  {
    LastWhere(IsRankRole, userRoles)
  }

  /** Without an account: every clan and rank role held goes, once per matching entry. */
  function ClearedRoles(userRoles: seq<string>, clanNames: seq<string>): (r: seq<string>)
    ensures forall x :: x in r <==> x in userRoles && (x in clanNames || IsRankRole(x))
  {
    if |userRoles| == 0 then []
    else
      var role := userRoles[0];
      assert forall x :: x in userRoles <==> x == role || x in userRoles[1..];
      var clanCopies := Repeat(role, multiset(clanNames)[role]);
      assert multiset(clanNames)[role] > 0 <==> role in clanNames;
      assert |clanCopies| > 0 ==> clanCopies[0] == role;
      assert forall x :: x in clanCopies <==> x == role && role in clanNames;
      clanCopies
      + (if IsRankRole(role) then [role] else [])
      + ClearedRoles(userRoles[1..], clanNames)
  }

  /**
   * Each held role is removed once per client clan of that name and once
   * more if it is a rank role, for every time it is held.
   */
  lemma ClearedRolesCount(userRoles: seq<string>, clanNames: seq<string>, x: string)
    ensures multiset(ClearedRoles(userRoles, clanNames))[x]
            == multiset(userRoles)[x] * (multiset(clanNames)[x] + if IsRankRole(x) then 1 else 0)
  {
    var k := multiset(clanNames)[x] + if IsRankRole(x) then 1 else 0;
    ClearedRolesSum(userRoles, clanNames, x);
    SumOfCopies(multiset(userRoles)[x], k);
  }

  /** `n` lots of `k`, added up one at a time. */
  function Copies(n: nat, k: nat): nat
  {
    if n == 0 then 0 else Copies(n - 1, k) + k
  }

  lemma {:induction false} SumOfCopies(n: nat, k: nat)
    ensures Copies(n, k) == n * k
  {
    if n > 0 {
      SumOfCopies(n - 1, k);
      assert (n - 1) * k + k == n * k;
    }
  }

  /** ClearedRolesCount by induction over the held roles, without products. */
  lemma {:induction false} ClearedRolesSum(userRoles: seq<string>, clanNames: seq<string>, x: string)
    ensures multiset(ClearedRoles(userRoles, clanNames))[x]
            == Copies(multiset(userRoles)[x], multiset(clanNames)[x] + if IsRankRole(x) then 1 else 0)
    decreases |userRoles|
  {
    if |userRoles| > 0 {
      ClearedRolesSum(userRoles[1..], clanNames, x);
      ClearedRolesStep(userRoles, clanNames, x);
    }
  }

  /** What the first held role contributes, and how often `x` is held. */
  lemma ClearedRolesStep(userRoles: seq<string>, clanNames: seq<string>, x: string)
    requires |userRoles| > 0
    ensures var k := multiset(clanNames)[x] + if IsRankRole(x) then 1 else 0;
            multiset(ClearedRoles(userRoles, clanNames))[x]
            == (if userRoles[0] == x then k else 0) + multiset(ClearedRoles(userRoles[1..], clanNames))[x]
    ensures multiset(userRoles)[x] == (if userRoles[0] == x then 1 else 0) + multiset(userRoles[1..])[x]
  {
    var role, tail := userRoles[0], userRoles[1..];
    var copies := Repeat(role, multiset(clanNames)[role]);
    var rank: seq<string> := if IsRankRole(role) then [role] else [];
    var rest := ClearedRoles(tail, clanNames);
    assert ClearedRoles(userRoles, clanNames) == copies + rank + rest;
    assert multiset(copies + rank + rest)[x] == multiset(copies)[x] + multiset(rank)[x] + multiset(rest)[x];
    RepeatCount(role, multiset(clanNames)[role], x);
    assert multiset(rank)[x] == if role == x && IsRankRole(x) then 1 else 0;
    assert userRoles == [role] + tail;
  }

  /**
   * role_switch. Without an account the user loses clan and rank roles and
   * gains "community" unless they hold it. With one, the clan role changes
   * when the last clan role held differs from the account's clan, the rank
   * role when the last rank role held differs from the account's rank, and
   * every "community" role goes. A linked account outside any clan has no
   * clan name to read: None stands for the AttributeError raised then.
   */
  function RoleSwitch(player: Option<ClanPlayer>, userRoles: seq<string>, clanNames: seq<string>): (r: Option<RoleChange>)
    ensures r.None? <==> player.Some? && player.value.clan.None?
    ensures r.Some? ==> forall x :: x in r.value.remove ==> x in userRoles
    ensures player.None? ==> r.Some? && (r.value.add == [] <==> Community in userRoles)
    ensures player.None? && r.value.add != [] ==> r.value.add == [Community]
    ensures player.None? ==> forall x :: x in r.value.remove <==> x in userRoles && (x in clanNames || IsRankRole(x))
    ensures player.Some? && r.Some? ==>
              var newClan := player.value.clan;
              var newRank := RankRole(player.value.gameRole);
              var clanChanged := OldClan(userRoles, clanNames) != newClan;
              var rankChanged := OldRank(userRoles) != Some(newRank);
              && |r.value.add| <= 2
              && (forall x :: x in r.value.add <==> (clanChanged && Some(x) == newClan) || (rankChanged && x == newRank))
              && (forall x :: x in r.value.remove <==>
                    || (x == Community && x in userRoles)
                    || (clanChanged && Some(x) == OldClan(userRoles, clanNames) && x != "")
                    || (rankChanged && Some(x) == OldRank(userRoles)))
  {
    match player
    case None =>
      Some(RoleChange(if Community in userRoles then [] else [Community], ClearedRoles(userRoles, clanNames)))
    case Some(p) =>
      match p.clan
      case None => None
      case Some(newClan) =>
        var oldClan := OldClan(userRoles, clanNames);
        var clanChanged := oldClan != Some(newClan);
        var newRank := RankRole(p.gameRole);
        var oldRank := OldRank(userRoles);
        var rankChanged := oldRank != Some(newRank);
        var communityRoles := Repeat(Community, multiset(userRoles)[Community]);
        assert Community in userRoles ==> communityRoles[0] == Community;
        assert forall x :: x in communityRoles <==> x == Community && x in userRoles;
        Some(RoleChange(
          (if clanChanged then [newClan] else []) + (if rankChanged then [newRank] else []),
          (if clanChanged && oldClan.Some? && oldClan.value != "" then [oldClan.value] else [])
          + communityRoles
          + (if rankChanged && oldRank.Some? then [oldRank.value] else [])))
  }

  /**
   * A linked user who already holds their clan's role and their rank's role
   * as the last ones of each kind gains nothing and loses only "community".
   */
  lemma RoleSwitchNoChurn(p: ClanPlayer, userRoles: seq<string>, clanNames: seq<string>)
    requires p.clan.Some?
    requires OldClan(userRoles, clanNames) == p.clan
    requires OldRank(userRoles) == Some(RankRole(p.gameRole))
    ensures RoleSwitch(Some(p), userRoles, clanNames).value.add == []
    ensures forall x :: x in RoleSwitch(Some(p), userRoles, clanNames).value.remove ==> x == Community
  {
  }

  /** Clan names are kept apart from the rank and community roles. */
  predicate DistinctRoleNames(clanNames: seq<string>, clanName: string)
  {
    && (forall i :: 0 <= i < |clanNames| ==> !IsRankRole(clanNames[i]) && clanNames[i] != Community)
    && !IsRankRole(clanName) && clanName != Community && clanName != ""
  }

  /**
   * After the switch a linked user holds their clan's role and their rank's
   * role and no "community" role.
   */
  lemma RoleSwitchSettles(p: ClanPlayer, userRoles: seq<string>, clanNames: seq<string>)
    requires p.clan.Some? && DistinctRoleNames(clanNames, p.clan.value)
    ensures var applied := Applied(userRoles, RoleSwitch(Some(p), userRoles, clanNames).value);
            p.clan.value in applied && RankRole(p.gameRole) in applied && Community !in applied
  {
    var r := RoleSwitch(Some(p), userRoles, clanNames).value;
    var oldClan := OldClan(userRoles, clanNames);
    var oldRank := OldRank(userRoles);
    var newRank := RankRole(p.gameRole);
    if oldClan.Some? {
      assert oldClan.value in userRoles && oldClan.value in clanNames;
    }
    if oldRank.Some? {
      assert oldRank.value in userRoles && IsRankRole(oldRank.value);
    }
    assert p.clan.value in r.add || (p.clan.value in userRoles && p.clan.value !in r.remove);
    assert newRank in r.add || (newRank in userRoles && newRank !in r.remove);
    assert Community !in r.add;
  }

  /**
   * After the switch an unlinked user holds the community role and no clan
   * or rank role.
   */
  lemma RoleSwitchUnlinked(userRoles: seq<string>, clanNames: seq<string>)
    requires forall i :: 0 <= i < |clanNames| ==> clanNames[i] != Community
    ensures var applied := Applied(userRoles, RoleSwitch(None, userRoles, clanNames).value);
            Community in applied
            && forall x :: x in applied ==> x !in clanNames && !IsRankRole(x)
  {
  }

  /**
   * Without an account, each held role is removed as often as it is held,
   * times the number of client clans of that name plus one for a rank role.
   */
  lemma RoleSwitchUnlinkedCount(userRoles: seq<string>, clanNames: seq<string>, x: string)
    ensures multiset(RoleSwitch(None, userRoles, clanNames).value.remove)[x]
            == multiset(userRoles)[x] * (multiset(clanNames)[x] + if IsRankRole(x) then 1 else 0)
  {
    ClearedRolesCount(userRoles, clanNames, x);
  }
}

=== FILE: seqs.dfy ===
/** Order-preserving filtering and the sums the scorers accumulate. */
module Seqs {

  /** The elements of `s` that satisfy `f`, in their original order. */
  function Filter<T(==,!new)>(f: T -> bool, s: seq<T>): (r: seq<T>)
    ensures |r| <= |s|
    ensures forall i :: 0 <= i < |r| ==> f(r[i])
    ensures forall x :: x in r <==> x in s && f(x)
    ensures forall x :: multiset(r)[x] == if f(x) then multiset(s)[x] else 0
  {
    if |s| == 0 then []
    else if f(s[0]) then
      assert s == [s[0]] + s[1..];
      [s[0]] + Filter(f, s[1..])
    else
      assert s == [s[0]] + s[1..];
      Filter(f, s[1..])
  }

  /** The position of the first element of `xs` satisfying `f`, or `|xs|`. */
  function FirstWhere<T>(f: T -> bool, xs: seq<T>): (k: nat)
    ensures k <= |xs|
    ensures forall j :: 0 <= j < k ==> !f(xs[j])
    ensures k < |xs| ==> f(xs[k])
  {
    if |xs| == 0 then 0
    else if f(xs[0]) then 0
    else 1 + FirstWhere(f, xs[1..])
  }

  /**
   * The first element kept by a filter is the first element satisfying the
   * predicate; nothing is kept exactly when nothing satisfies it.
   */
  lemma {:induction false} FilterFirst<T(!new)>(f: T -> bool, s: seq<T>)
    ensures |Filter(f, s)| > 0 <==> FirstWhere(f, s) < |s|
    ensures |Filter(f, s)| > 0 ==> Filter(f, s)[0] == s[FirstWhere(f, s)]
    decreases |s|
  {
    if |s| > 0 && !f(s[0]) {
      FilterFirst(f, s[1..]);
    }
  }

  /** `a` is obtained from `b` by deleting elements; the rest keep their order. */
  predicate IsSubseq<T(==)>(a: seq<T>, b: seq<T>)
    decreases |b|
  {
    if |a| == 0 then true
    else if |b| == 0 then false
    else if a[0] == b[0] then IsSubseq(a[1..], b[1..])
    else IsSubseq(a, b[1..])
  }

  lemma {:induction false} FilterIsSubseq<T(!new)>(f: T -> bool, s: seq<T>)
    ensures IsSubseq(Filter(f, s), s)
    decreases |s|
  {
    if |s| > 0 {
      FilterIsSubseq(f, s[1..]);
      var rest := Filter(f, s[1..]);
      if f(s[0]) {
        assert ([s[0]] + rest)[1..] == rest;
      } else if |rest| > 0 {
        assert f(rest[0]);
      }
    }
  }

  lemma {:induction false} FilterAppend<T(!new)>(f: T -> bool, a: seq<T>, b: seq<T>)
    ensures Filter(f, a + b) == Filter(f, a) + Filter(f, b)
    decreases |a|
  {
    if |a| == 0 {
      assert a + b == b;
    } else {
      var ab := a + b;
      assert ab[0] == a[0];
      assert ab[1..] == a[1..] + b;
      FilterAppend(f, a[1..], b);
      if f(a[0]) {
        calc {
          Filter(f, ab);
          [a[0]] + Filter(f, a[1..] + b);
          [a[0]] + (Filter(f, a[1..]) + Filter(f, b));
          ([a[0]] + Filter(f, a[1..])) + Filter(f, b);
        }
      }
    }
  }

  /** Sum of a sequence of reals. */
  function SumReals(s: seq<real>): real
  {
    if |s| == 0 then 0.0 else s[0] + SumReals(s[1..])
  }

  /** A sequence of `n` copies of `x`. */
  function Repeat<T>(x: T, n: nat): (r: seq<T>)
    ensures |r| == n
    ensures forall i :: 0 <= i < n ==> r[i] == x
  {
    seq(n, _ => x)
  }

  /** `Repeat(x, n)` holds `n` copies of `x` and nothing else. */
  lemma {:induction false} RepeatCount<T>(x: T, n: nat, y: T)
    ensures multiset(Repeat(x, n))[y] == if y == x then n else 0
    decreases n
  {
    if n > 0 {
      RepeatCount(x, n - 1, y);
      assert Repeat(x, n) == Repeat(x, n - 1) + [x];
    }
  }

  /** `f` applied to every element, in order. */
  function Map<A, B>(f: A -> B, s: seq<A>): (r: seq<B>)
    ensures |r| == |s|
    ensures forall i :: 0 <= i < |s| ==> r[i] == f(s[i])
  {
    seq(|s|, i requires 0 <= i < |s| => f(s[i]))
  }

  lemma MapCons<A, B>(f: A -> B, x: A, s: seq<A>)
    ensures Map(f, [x] + s) == [f(x)] + Map(f, s)
  {
    assert forall i :: 0 < i <= |s| ==> ([x] + s)[i] == s[i - 1];
  }
}

=== FILE: sorting.dfy ===
/**
 * A stable sort by a real-valued key, highest first: the behaviour of
 * Python's `sorted(..., key=..., reverse=True)`, which keeps equal keys in
 * their original order.
 */
module Sorting {
  import opened Seqs

  predicate SortedDesc<T>(key: T -> real, s: seq<T>)
  {
    forall i, j :: 0 <= i < j < |s| ==> key(s[i]) >= key(s[j])
  }

  /** The elements of `s` whose key is `v`, in order. */
  function WithKey<T>(key: T -> real, v: real, s: seq<T>): seq<T>
  {
    if |s| == 0 then []
    else if key(s[0]) == v then [s[0]] + WithKey(key, v, s[1..])
    else WithKey(key, v, s[1..])
  }

  /** Put `x` in front of the first element whose key does not exceed its own. */
  function Insert<T>(key: T -> real, x: T, s: seq<T>): (r: seq<T>)
    requires SortedDesc(key, s)
    ensures |r| == |s| + 1
    ensures SortedDesc(key, r)
    ensures r[0] == x || (|s| > 0 && r[0] == s[0])
  {
    if |s| == 0 || key(s[0]) <= key(x) then [x] + s
    else
      var rest := Insert(key, x, s[1..]);
      assert s == [s[0]] + s[1..];
      assert key(rest[0]) <= key(s[0]);
      assert forall i :: 0 <= i < |rest| ==> key(rest[i]) <= key(rest[0]);
      var r := [s[0]] + rest;
      assert forall i, j :: 0 <= i < j < |r| ==> key(r[i]) >= key(r[j]) by {
        forall i, j | 0 <= i < j < |r|
          ensures key(r[i]) >= key(r[j])
        {
          if i > 0 {
            assert r[i] == rest[i - 1] && r[j] == rest[j - 1];
          } else {
            assert r[j] == rest[j - 1];
          }
        }
      }
      r
  }

  lemma {:induction false} InsertPermutes<T>(key: T -> real, x: T, s: seq<T>)
    requires SortedDesc(key, s)
    ensures multiset(Insert(key, x, s)) == multiset(s) + multiset{x}
    decreases |s|
  {
    if |s| > 0 && key(s[0]) > key(x) {
      var rest := Insert(key, x, s[1..]);
      InsertPermutes(key, x, s[1..]);
      assert Insert(key, x, s) == [s[0]] + rest;
      assert s == [s[0]] + s[1..];
      calc {
        multiset([s[0]] + rest);
        multiset([s[0]]) + multiset(rest);
        multiset([s[0]]) + multiset(s[1..]) + multiset{x};
        multiset(s) + multiset{x};
      }
    }
  }

  /** The elements of `s` by non-increasing key, equal keys in their original order. */
  function SortDesc<T>(key: T -> real, s: seq<T>): (r: seq<T>)
    ensures |r| == |s|
    ensures multiset(r) == multiset(s)
    ensures SortedDesc(key, r)
  {
    if |s| == 0 then []
    else
      assert s == [s[0]] + s[1..];
      InsertPermutes(key, s[0], SortDesc(key, s[1..]));
      Insert(key, s[0], SortDesc(key, s[1..]))
  }

  /** Inserting `x` adds one image of `x` to the images of the list. */
  lemma {:induction false} InsertMapPermutes<T, U>(key: T -> real, f: T -> U, x: T, s: seq<T>)
    requires SortedDesc(key, s)
    ensures multiset(Map(f, Insert(key, x, s))) == multiset(Map(f, s)) + multiset{f(x)}
    decreases |s|
  {
    if |s| == 0 || key(s[0]) <= key(x) {
      MapCons(f, x, s);
    } else {
      var rest := Insert(key, x, s[1..]);
      InsertMapPermutes(key, f, x, s[1..]);
      assert Insert(key, x, s) == [s[0]] + rest;
      assert s == [s[0]] + s[1..];
      MapCons(f, s[0], rest);
      MapCons(f, s[0], s[1..]);
    }
  }

  /** Whatever the elements are turned into, the sorted list yields the same images, multiplicities included. */
  lemma {:induction false} SortDescMapPermutes<T, U>(key: T -> real, f: T -> U, s: seq<T>)
    ensures multiset(Map(f, SortDesc(key, s))) == multiset(Map(f, s))
    decreases |s|
  {
    if |s| > 0 {
      SortDescMapPermutes(key, f, s[1..]);
      InsertMapPermutes(key, f, s[0], SortDesc(key, s[1..]));
      assert s == [s[0]] + s[1..];
      MapCons(f, s[0], s[1..]);
    }
  }

  lemma {:induction false} InsertWithKey<T>(key: T -> real, v: real, x: T, s: seq<T>)
    requires SortedDesc(key, s)
    ensures WithKey(key, v, Insert(key, x, s))
            == (if key(x) == v then [x] else []) + WithKey(key, v, s)
    decreases |s|
  {
    if |s| == 0 || key(s[0]) <= key(x) {
      assert ([x] + s)[1..] == s;
    } else {
      var rest := Insert(key, x, s[1..]);
      InsertWithKey(key, v, x, s[1..]);
      assert ([s[0]] + rest)[1..] == rest;
    }
  }

  /** Stability: among equal keys the sort keeps the original order. */
  lemma {:induction false} SortDescStable<T>(key: T -> real, v: real, s: seq<T>)
    ensures WithKey(key, v, SortDesc(key, s)) == WithKey(key, v, s)
    decreases |s|
  {
    if |s| > 0 {
      SortDescStable(key, v, s[1..]);
      InsertWithKey(key, v, s[0], SortDesc(key, s[1..]));
    }
  }
}

=== FILE: standings.dfy ===
/**
 * War standings as the bot reports them: one member's score, or every
 * member's score best first, with notes instead of scores before a war has
 * started.
 * Source: DiscordResponder.py, war_member_standing and
 * war_all_member_standing.
 */
module Standings {
  import opened Optional
  import opened WarModel
  import opened WarScoring
  import opened Seqs
  import opened Sorting

  /** What is shown next to a name. */
  datatype FieldValue = NoScore | NotFoundInWar | Score(score: real)

  /** One line of the reply. */
  datatype Field = Field(name: string, value: FieldValue)

  const NotInWarTitle := "you are not in war"
  const NotStartedTitle := "war has not started"

  /** The player asking: their tag and name. */
  datatype PlayerRef = PlayerRef(tag: string, name: string)

  /** The war state in which scores exist. */
  predicate Scoring(state: WarState)
  {
    state == InWar || state == WarEnded
  }

  /**
   * war_member_standing: "not in war" comes first, then membership of the
   * roster, then "has not started"; only a member of a running or ended war
   * gets a score.
   */
  function WarMemberStanding(war: War, player: PlayerRef): (r: seq<Field>)
    requires Scoring(war.state) ==> MemberReady(war, player.tag)
    ensures |r| == 1
    ensures r[0].value.Score? <==> Scoring(war.state) && FindMember(war.clan.members, player.tag).Some?
    ensures r[0].value.Score? ==>
              var m := FindMember(war.clan.members, player.tag).value;
              r[0] == Field(m.name, Score(MemberScore(m, war).score))
    ensures r[0].value == NotFoundInWar <==>
              war.state != NotInWar && FindMember(war.clan.members, player.tag).None?
    ensures r[0].value == NotFoundInWar ==> r == [Field(player.name, NotFoundInWar)]
    ensures war.state == NotInWar ==> r == [Field(NotInWarTitle, NoScore)]
    ensures war.state == Preparation && FindMember(war.clan.members, player.tag).Some? ==>
              r == [Field(NotStartedTitle, NoScore)]
  {
    if war.state == NotInWar then [Field(NotInWarTitle, NoScore)]
    else
      match FindMember(war.clan.members, player.tag)
      case None => [Field(player.name, NotFoundInWar)]
      case Some(member) =>
        if war.state == Preparation then [Field(NotStartedTitle, NoScore)]
        else
          var scored := MemberScore(member, war);
          [Field(scored.name, Score(scored.score))]
  }

  /** Membership is checked before the preparation state: an outsider is told so even then. */
  lemma OutsiderDuringPreparation(war: War, player: PlayerRef)
    requires war.state == Preparation
    requires forall i :: 0 <= i < |war.clan.members| ==> war.clan.members[i].tag != player.tag
    ensures WarMemberStanding(war, player) == [Field(player.name, NotFoundInWar)]
  {
  }

  function ScoreOf(s: ScoredWarMember): real
  {
    s.score
  }

  predicate AllDefendersKnown(war: War)
  {
    forall i :: 0 <= i < |war.clan.members| ==> DefendersKnown(war, war.clan.members[i])
  }

  /** Every member of the own side, scored, in roster order. */
  function ScoreAll(war: War): (r: seq<ScoredWarMember>)
    requires AllDefendersKnown(war)
    ensures |r| == |war.clan.members|
    ensures forall i :: 0 <= i < |r| ==> r[i] == MemberScore(war.clan.members[i], war)
  {
    seq(|war.clan.members|, i requires 0 <= i < |war.clan.members| => MemberScore(war.clan.members[i], war))
  }

  function ToField(s: ScoredWarMember): Field
  {
    Field(s.name, Score(s.score))
  }

  function ToFields(s: seq<ScoredWarMember>): (r: seq<Field>)
    ensures |r| == |s|
    ensures forall i :: 0 <= i < |s| ==> r[i] == ToField(s[i])
  {
    Map(ToField, s)
  }

  /**
   * `lines` shows every scored member exactly as ranked: best score first,
   * and the lines are the members' scores reordered, one line per member.
   */
  predicate Ranked(lines: seq<Field>, scored: seq<ScoredWarMember>)
  {
    |lines| == |scored| && BestFirst(lines) && multiset(lines) == multiset(ToFields(scored))
  }

  /** Every line is a score, and the scores do not increase down the list. */
  predicate BestFirst(lines: seq<Field>)
  {
    && (forall i :: 0 <= i < |lines| ==> lines[i].value.Score?)
    && (forall i, j :: 0 <= i < j < |lines| ==> lines[i].value.score >= lines[j].value.score)
  }

  /**
   * war_all_member_standing: a single note outside a running or ended war;
   * otherwise one line per member, best score first.
   */
  function WarAllMemberStanding(war: War): (r: seq<Field>)
    requires Scoring(war.state) ==> AllDefendersKnown(war)
    ensures war.state == NotInWar ==> r == [Field(NotInWarTitle, NoScore)]
    ensures war.state == Preparation ==> r == [Field(NotStartedTitle, NoScore)]
    ensures Scoring(war.state) ==> Ranked(r, ScoreAll(war))
  {
    if war.state == NotInWar then [Field(NotInWarTitle, NoScore)]
    else if war.state == Preparation then [Field(NotStartedTitle, NoScore)]
    else
      var scored := ScoreAll(war);
      SortedFields(scored);
      ToFields(SortDesc(ScoreOf, scored))
  }

  lemma SortedFieldsOrdered(sorted: seq<ScoredWarMember>)
    requires SortedDesc(ScoreOf, sorted)
    ensures BestFirst(ToFields(sorted))
  {
    var r := ToFields(sorted);
    forall i, j | 0 <= i < j < |r|
      ensures r[i].value.score >= r[j].value.score
    {
      assert ScoreOf(sorted[i]) >= ScoreOf(sorted[j]);
    }
  }

  /** The facts war_all_member_standing promises about its sorted list of lines. */
  lemma SortedFields(scored: seq<ScoredWarMember>)
    ensures Ranked(ToFields(SortDesc(ScoreOf, scored)), scored)
  {
    SortedFieldsOrdered(SortDesc(ScoreOf, scored));
    SortDescMapPermutes(ScoreOf, ToField, scored);
  }

  /** The lines of `lines` showing score `v`, in list order. */
  function LinesWithScore(v: real, lines: seq<Field>): seq<Field>
  {
    Filter((l: Field) => l.value == Score(v), lines)
  }

  lemma {:induction false} LinesWithScoreOfFields(v: real, s: seq<ScoredWarMember>)
    ensures LinesWithScore(v, ToFields(s)) == ToFields(WithKey(ScoreOf, v, s))
    decreases |s|
  {
    if |s| > 0 {
      assert s == [s[0]] + s[1..];
      MapCons(ToField, s[0], s[1..]);
      LinesWithScoreOfFields(v, s[1..]);
      if ScoreOf(s[0]) == v {
        MapCons(ToField, s[0], WithKey(ScoreOf, v, s[1..]));
      }
    }
  }

  /**
   * Members with equal scores are listed in roster order: the lines showing
   * score `v` are the lines of the roster's members with that score, in
   * roster order.
   */
  lemma WarAllMemberStandingStable(war: War, v: real)
    requires Scoring(war.state) && AllDefendersKnown(war)
    ensures LinesWithScore(v, WarAllMemberStanding(war)) == ToFields(WithKey(ScoreOf, v, ScoreAll(war)))
  {
    SortDescStable(ScoreOf, v, ScoreAll(war));
    LinesWithScoreOfFields(v, SortDesc(ScoreOf, ScoreAll(war)));
  }
}

=== FILE: time_text.dfy ===
/**
 * The countdown split of a war's remaining time and the singular/plural
 * words of the war messages.
 * Source: ClashDiscord/responders/ClashResponder.py, date_time_calculator,
 * string_attack, string_attack_times and string_member_stars.
 */
module TimeText {

  const SecondsPerDay := 86400
  const SecondsPerHour := 3600
  const SecondsPerMinute := 60

  datatype Countdown = Countdown(days: int, hours: int, minutes: int, seconds: int)

  /** The number of seconds a countdown stands for. */
  function TotalSeconds(c: Countdown): int
  {
    c.days * SecondsPerDay + c.hours * SecondsPerHour + c.minutes * SecondsPerMinute + c.seconds
  }

  predicate WellFormed(c: Countdown)
  {
    0 <= c.hours < 24 && 0 <= c.minutes < 60 && 0 <= c.seconds < 60
  }

  /**
   * date_time_calculator. `difference` is the whole seconds between the
   * target time and now (the clock reading is an input). Days are floored,
   * as a time difference normalises them, so the rest is never negative.
   */
  function DateTimeCalculator(difference: int): (r: Countdown)
    ensures WellFormed(r)
    ensures TotalSeconds(r) == difference
  {
    var days := difference / SecondsPerDay;
    var seconds := difference % SecondsPerDay;
    var hours := seconds / SecondsPerHour;
    var minutes := seconds % SecondsPerHour / SecondsPerMinute;
    Countdown(days, hours, minutes, seconds - hours * SecondsPerHour - minutes * SecondsPerMinute)
  }

  /** A well-formed countdown is recovered from the seconds it stands for. */
  lemma DateTimeCalculatorRoundTrip(c: Countdown)
    requires WellFormed(c)
    ensures DateTimeCalculator(TotalSeconds(c)) == c
  {
    var rest := c.hours * SecondsPerHour + c.minutes * SecondsPerMinute + c.seconds;
    assert 0 <= rest < SecondsPerDay;
    assert TotalSeconds(c) / SecondsPerDay == c.days;
    assert TotalSeconds(c) % SecondsPerDay == rest;
    var inHour := c.minutes * SecondsPerMinute + c.seconds;
    assert rest / SecondsPerHour == c.hours;
    assert rest % SecondsPerHour == inHour;
    assert inHour / SecondsPerMinute == c.minutes;
  }

  /** string_attack. */
  function StringAttack(attackCount: int): (r: string)
    ensures r == "attack" <==> attackCount == 1
    ensures r == "attack" || r == "attacks"
  {
    if attackCount == 1 then "attack" else "attacks"
  }

  /** string_attack_times: the word follows the number of attacks in the list. */
  function StringAttackTimes<T>(memberAttacks: seq<T>): (r: string)
    ensures r == "time" <==> |memberAttacks| == 1
    ensures r == "time" || r == "times"
  {
    if |memberAttacks| == 1 then "time" else "times"
  }

  /** string_member_stars. */
  function StringMemberStars(warStarCount: int): (r: string)
    ensures r == "star" <==> warStarCount == 1
    ensures r == "star" || r == "stars"
  {
    if warStarCount == 1 then "star" else "stars"
  }
}

=== FILE: units.dfy ===
/**
 * Unit snapshots and the name matching used to look units up: a requested
 * name matches a unit when both agree after every '.' is removed and the
 * letters are lowered, so that "pekka" finds "P.E.K.K.A".
 * Source: ClashDiscord/responders/ClashResponder.py, find_*_name, find_unit,
 * find_<category> and find_player_unit.
 */
module Units {
  import opened Optional
  import Seqs

  /** One unit of a player: a hero, pet, troop, siege machine or spell. */
  datatype Unit = Unit(name: string, level: int, maxLevel: int, isActive: bool)

  /** The unit lists of a fetched player snapshot, one per category. */
  datatype Player = Player(
    tag: string,
    name: string,
    townHall: int,
    heroes: seq<Unit>,
    pets: seq<Unit>,
    homeTroops: seq<Unit>,
    sieges: seq<Unit>,
    superTroops: seq<Unit>,
    spells: seq<Unit>,
    builderTroops: seq<Unit>)

  predicate NotDot(c: char)
  {
    c != '.'
  }

  /** ASCII lower-casing of one character. */
  function Lower(c: char): char
  {
    if 'A' <= c <= 'Z' then (c as int + 32) as char else c
  }

  /** ASCII upper-casing of one character. */
  function Upper(c: char): char
  {
    if 'a' <= c <= 'z' then (c as int - 32) as char else c
  }

  function LowerAll(s: string): (r: string)
    ensures |r| == |s|
    ensures forall i :: 0 <= i < |s| ==> r[i] == Lower(s[i])
  {
    if |s| == 0 then [] else [Lower(s[0])] + LowerAll(s[1..])
  }

  function UpperAll(s: string): (r: string)
    ensures |r| == |s|
    ensures forall i :: 0 <= i < |s| ==> r[i] == Upper(s[i])
  {
    if |s| == 0 then [] else [Upper(s[0])] + UpperAll(s[1..])
  }

  /** The comparison key of a name: dots removed, letters lowered. */
  function Normalise(s: string): (r: string)
    ensures '.' !in r
    ensures forall i :: 0 <= i < |r| ==> !('A' <= r[i] <= 'Z')
    ensures |r| <= |s|
  {
    LowerAll(Seqs.Filter(NotDot, s))
  }

  predicate SameName(a: string, b: string)
  {
    Normalise(a) == Normalise(b)
  }

  /** Whether an element's name matches `name`. */
  function Matches<T>(nameOf: T -> string, name: string): T -> bool
  {
    x => SameName(nameOf(x), name)
  }

  /** The position of the first element of `xs` whose name matches `name`, or `|xs|`. */
  function FirstMatch<T>(nameOf: T -> string, name: string, xs: seq<T>): (k: nat)
    ensures k <= |xs|
    ensures forall j :: 0 <= j < k ==> !SameName(nameOf(xs[j]), name)
    ensures k < |xs| ==> SameName(nameOf(xs[k]), name)
  {
    var k := Seqs.FirstWhere(Matches(nameOf, name), xs);
    assert forall j :: 0 <= j < |xs| ==> Matches(nameOf, name)(xs[j]) == SameName(nameOf(xs[j]), name);
    k
  }

  /** The first element of `xs` satisfying `f`, if any. */
  function FindWhere<T>(f: T -> bool, xs: seq<T>): Option<T>
  {
    var k := Seqs.FirstWhere(f, xs);
    if k < |xs| then Some(xs[k]) else None
  }

  /** The first element of `xs` whose name matches `name`, if any. */
  function FindByName<T>(nameOf: T -> string, name: string, xs: seq<T>): (r: Option<T>)
    ensures r.None? <==> forall i :: 0 <= i < |xs| ==> !SameName(nameOf(xs[i]), name)
    ensures r.Some? ==> exists i :: 0 <= i < |xs| && xs[i] == r.value && SameName(nameOf(xs[i]), name)
                                    && forall j :: 0 <= j < i ==> !SameName(nameOf(xs[j]), name)
  {
    var k := FirstMatch(nameOf, name, xs);
    assert k == Seqs.FirstWhere(Matches(nameOf, name), xs);
    FindWhere(Matches(nameOf, name), xs)
  }

  function UnitName(u: Unit): string
  {
    u.name
  }

  function Identity(s: string): string
  {
    s
  }

  /** find_unit: the first unit of the list whose name matches. */
  function FindUnit(name: string, units: seq<Unit>): (r: Option<Unit>)
    ensures r.None? <==> forall u :: u in units ==> !SameName(u.name, name)
    ensures r.Some? ==> r.value in units && SameName(r.value.name, name)
    ensures r.Some? ==> exists i :: 0 <= i < |units| && units[i] == r.value
                                    && forall j :: 0 <= j < i ==> !SameName(units[j].name, name)
  {
    FindByName(UnitName, name, units)
  }

  /** find_<category>_name: the catalogue's spelling of a requested name. */
  function FindName(name: string, catalogue: seq<string>): (r: Option<string>)
    ensures r.None? <==> forall n :: n in catalogue ==> !SameName(n, name)
    ensures r.Some? ==> r.value in catalogue && SameName(r.value, name)
    ensures r.Some? ==> exists i :: 0 <= i < |catalogue| && catalogue[i] == r.value
                                    && forall j :: 0 <= j < i ==> !SameName(catalogue[j], name)
  {
    FindByName(Identity, name, catalogue)
  }

  /**
   * find_player_unit: search heroes, pets, home troops, siege machines,
   * super troops, spells and builder troops, in that order.
   */
  function FindPlayerUnit(p: Player, name: string): Option<Unit>
  {
    var hero := FindUnit(name, p.heroes);
    if hero.Some? then hero else
    var pet := FindUnit(name, p.pets);
    if pet.Some? then pet else
    var troop := FindUnit(name, p.homeTroops);
    if troop.Some? then troop else
    var siege := FindUnit(name, p.sieges);
    if siege.Some? then siege else
    var superTroop := FindUnit(name, p.superTroops);
    if superTroop.Some? then superTroop else
    var spell := FindUnit(name, p.spells);
    if spell.Some? then spell else
    FindUnit(name, p.builderTroops)
  }

  /** Every unit of a player, in the order find_player_unit searches them. */
  function AllUnits(p: Player): seq<Unit>
  {
    p.heroes + p.pets + p.homeTroops + p.sieges + p.superTroops + p.spells + p.builderTroops
  }

  predicate IsActive(u: Unit)
  {
    u.isActive
  }

  /**
   * player_active_super_troops: the troops of a player that are active
   * (only boosted super troops are), in the order the player lists them.
   */
  function ActiveSuperTroops(troops: seq<Unit>): (r: seq<Unit>)
    ensures Seqs.IsSubseq(r, troops)
    ensures forall u :: u in r <==> u in troops && u.isActive
    ensures forall u: Unit :: u.isActive ==> multiset(r)[u] == multiset(troops)[u]
  {
    Seqs.FilterIsSubseq(IsActive, troops);
    Seqs.Filter(IsActive, troops)
  }

  // ---------------------------------------------------------------- lemmas

  /** A dot anywhere in a requested name does not change what it matches. */
  lemma NormaliseIgnoresDot(a: string, b: string)
    ensures Normalise(a + "." + b) == Normalise(a + b)
  {
    var dot: string := ['.'];
    assert a + "." + b == (a + dot) + b;
    Seqs.FilterAppend(NotDot, a + dot, b);
    Seqs.FilterAppend(NotDot, a, dot);
    Seqs.FilterAppend(NotDot, a, b);
    assert Seqs.Filter(NotDot, dot) == [];
    assert Seqs.Filter(NotDot, a + dot) == Seqs.Filter(NotDot, a);
  }

  lemma {:induction false} LowerUpperAll(s: string)
    ensures LowerAll(UpperAll(s)) == LowerAll(s)
  {
    assert forall i :: 0 <= i < |s| ==> Lower(Upper(s[i])) == Lower(s[i]);
  }

  lemma {:induction false} FilterDotsUpperAll(s: string)
    ensures Seqs.Filter(NotDot, UpperAll(s)) == UpperAll(Seqs.Filter(NotDot, s))
    decreases |s|
  {
    if |s| > 0 {
      var u := UpperAll(s);
      assert u[1..] == UpperAll(s[1..]);
      FilterDotsUpperAll(s[1..]);
      assert NotDot(u[0]) <==> NotDot(s[0]);
      if NotDot(s[0]) {
        calc {
          Seqs.Filter(NotDot, u);
          [u[0]] + Seqs.Filter(NotDot, u[1..]);
          [Upper(s[0])] + UpperAll(Seqs.Filter(NotDot, s[1..]));
          UpperAll([s[0]] + Seqs.Filter(NotDot, s[1..]));
        }
      }
    }
  }

  /** Writing a requested name in capitals does not change what it matches. */
  lemma NormaliseIgnoresCase(s: string)
    ensures Normalise(UpperAll(s)) == Normalise(s)
  {
    FilterDotsUpperAll(s);
    LowerUpperAll(Seqs.Filter(NotDot, s));
  }

  lemma {:induction false} FirstWhereAgree<T>(f: T -> bool, g: T -> bool, xs: seq<T>)
    requires forall i :: 0 <= i < |xs| ==> f(xs[i]) == g(xs[i])
    ensures Seqs.FirstWhere(f, xs) == Seqs.FirstWhere(g, xs)
    decreases |xs|
  {
    if |xs| > 0 {
      assert forall i :: 0 <= i < |xs[1..]| ==> xs[1..][i] == xs[i + 1];
      FirstWhereAgree(f, g, xs[1..]);
    }
  }

  /** The lookup sees a requested name only through its comparison key. */
  lemma FindByNameRespectsKey<T>(nameOf: T -> string, a: string, b: string, xs: seq<T>)
    requires Normalise(a) == Normalise(b)
    ensures FirstMatch(nameOf, a, xs) == FirstMatch(nameOf, b, xs)
    ensures FindByName(nameOf, a, xs) == FindByName(nameOf, b, xs)
  {
    assert forall i :: 0 <= i < |xs| ==> Matches(nameOf, a)(xs[i]) == Matches(nameOf, b)(xs[i]);
    FirstWhereAgree(Matches(nameOf, a), Matches(nameOf, b), xs);
  }

  lemma FindUnitIgnoresDotAndCase(a: string, b: string, units: seq<Unit>)
    ensures FindUnit(a + "." + b, units) == FindUnit(a + b, units)
    ensures FindUnit(UpperAll(a), units) == FindUnit(a, units)
  {
    NormaliseIgnoresDot(a, b);
    FindByNameRespectsKey(UnitName, a + "." + b, a + b, units);
    NormaliseIgnoresCase(a);
    FindByNameRespectsKey(UnitName, UpperAll(a), a, units);
  }

  lemma {:induction false} FirstWhereAppend<T>(f: T -> bool, a: seq<T>, b: seq<T>)
    ensures Seqs.FirstWhere(f, a + b)
         == if Seqs.FirstWhere(f, a) < |a| then Seqs.FirstWhere(f, a) else |a| + Seqs.FirstWhere(f, b)
    decreases |a|
  {
    if |a| == 0 {
      assert a + b == b;
    } else {
      assert (a + b)[0] == a[0];
      assert (a + b)[1..] == a[1..] + b;
      FirstWhereAppend(f, a[1..], b);
    }
  }

  /** Searching two lists one after the other is searching their concatenation. */
  lemma FindWhereAppend<T>(f: T -> bool, a: seq<T>, b: seq<T>)
    ensures FindWhere(f, a + b) == if FindWhere(f, a).Some? then FindWhere(f, a) else FindWhere(f, b)
  {
    FirstWhereAppend(f, a, b);
    var k := Seqs.FirstWhere(f, a);
    var m := Seqs.FirstWhere(f, b);
    if k < |a| {
      assert (a + b)[k] == a[k];
    } else if m < |b| {
      assert (a + b)[|a| + m] == b[m];
    }
  }

  lemma FindByNameAppend<T>(nameOf: T -> string, name: string, a: seq<T>, b: seq<T>)
    ensures FindByName(nameOf, name, a + b)
         == if FindByName(nameOf, name, a).Some? then FindByName(nameOf, name, a) else FindByName(nameOf, name, b)
  {
    FindWhereAppend(Matches(nameOf, name), a, b);
  }

  /** find_player_unit returns the first matching unit over all categories in search order. */
  lemma FindPlayerUnitIsFirstMatch(p: Player, name: string)
    ensures FindPlayerUnit(p, name) == FindUnit(name, AllUnits(p))
  {
    var rest5 := p.spells + p.builderTroops;
    var rest4 := p.superTroops + rest5;
    var rest3 := p.sieges + rest4;
    var rest2 := p.homeTroops + rest3;
    var rest1 := p.pets + rest2;
    assert AllUnits(p) == p.heroes + rest1;
    FindByNameAppend(UnitName, name, p.spells, p.builderTroops);
    var found5 := FindUnit(name, rest5);
    FindByNameAppend(UnitName, name, p.superTroops, rest5);
    var found4 := FindUnit(name, rest4);
    assert found4 == if FindUnit(name, p.superTroops).Some? then FindUnit(name, p.superTroops) else found5;
    FindByNameAppend(UnitName, name, p.sieges, rest4);
    var found3 := FindUnit(name, rest3);
    assert found3 == if FindUnit(name, p.sieges).Some? then FindUnit(name, p.sieges) else found4;
    FindByNameAppend(UnitName, name, p.homeTroops, rest3);
    var found2 := FindUnit(name, rest2);
    assert found2 == if FindUnit(name, p.homeTroops).Some? then FindUnit(name, p.homeTroops) else found3;
    FindByNameAppend(UnitName, name, p.pets, rest2);
    var found1 := FindUnit(name, rest1);
    assert found1 == if FindUnit(name, p.pets).Some? then FindUnit(name, p.pets) else found2;
    FindByNameAppend(UnitName, name, p.heroes, rest1);
  }

  /** find_player_unit finds a unit exactly when one of the player's units matches, and only such a unit. */
  lemma FindPlayerUnitMatches(p: Player, name: string)
    ensures FindPlayerUnit(p, name).None? <==> forall u :: u in AllUnits(p) ==> !SameName(u.name, name)
    ensures FindPlayerUnit(p, name).Some? ==>
              FindPlayerUnit(p, name).value in AllUnits(p) && SameName(FindPlayerUnit(p, name).value.name, name)
  {
    FindPlayerUnitIsFirstMatch(p, name);
  }
}

=== FILE: war_model.dfy ===
/**
 * Read-only war snapshots as the game API hands them over, and the roster
 * lookups the scorers use.
 * Source: ClashDiscord/responders/ClashResponder.py, find_defender.
 */
module WarModel {
  import opened Optional

  datatype WarState = Preparation | InWar | WarEnded | NotInWar

  /** One attack: who attacked whom, the stars (0..3) and destruction percentage. */
  datatype Attack = Attack(attackerTag: string, defenderTag: string, stars: int, destruction: real)

  datatype WarMember = WarMember(
    tag: string,
    name: string,
    townHall: int,
    mapPosition: int,
    attacks: seq<Attack>)

  /** One side of a war. */
  datatype WarClan = WarClan(
    tag: string,
    name: string,
    members: seq<WarMember>,
    stars: int,
    destruction: real)

  /**
   * A war snapshot. `warTag` is "#0" for a league round without a pairing;
   * `status` is the game's outcome text ("won", "lost", ...).
   */
  datatype War = War(
    warTag: string,
    state: WarState,
    status: string,
    isCwl: bool,
    attacksPerMember: int,
    clan: WarClan,
    opponent: WarClan)

  /** A member of a league-group clan roster. */
  datatype ClanMember = ClanMember(tag: string, name: string, townHall: int)

  /** A clan as listed in a league group. */
  datatype CwlClan = CwlClan(tag: string, name: string, members: seq<ClanMember>)

  /** The position of the first member carrying `tag`, or `|members|`. */
  function MemberIndex(members: seq<WarMember>, tag: string): (k: nat)
    ensures k <= |members|
    ensures forall j :: 0 <= j < k ==> members[j].tag != tag
    ensures k < |members| ==> members[k].tag == tag
  {
    if |members| == 0 then 0
    else if members[0].tag == tag then 0
    else 1 + MemberIndex(members[1..], tag)
  }

  /** find_defender: the first member of a side carrying `tag`, if any. */
  function FindMember(members: seq<WarMember>, tag: string): (r: Option<WarMember>)
    ensures r.None? <==> forall i :: 0 <= i < |members| ==> members[i].tag != tag
    ensures r.Some? ==> r.value in members && r.value.tag == tag
    ensures r.Some? ==> exists i :: 0 <= i < |members| && members[i] == r.value
                                    && forall j :: 0 <= j < i ==> members[j].tag != tag
  {
    var k := MemberIndex(members, tag);
    if k < |members| then Some(members[k]) else None
  }
}

=== FILE: war_queries.dfy ===
/**
 * Clan-level war queries: members who missed attacks, and the count of
 * members per town-hall level.
 * Source: ClashDiscord/responders/ClashResponder.py, th_lineup_dict,
 * war_clan_lineup, war_no_attack, clan_lineup and cwl_clan_lineup.
 */
module WarQueries {
  import opened Optional
  import opened Seqs
  import opened WarModel
  import Units

  /**
   * Whether a member is reported by war_no_attack: without a count, any
   * member whose attacks differ from the allowance; with a count k, those
   * missing exactly k attacks.
   */
  predicate Misses(war: War, missedAttackCount: Option<int>, member: WarMember)
  {
    match missedAttackCount
    case None => |member.attacks| != war.attacksPerMember
    case Some(k) => war.attacksPerMember - |member.attacks| == k
  }

  /** war_no_attack: the reported members of the own side, in roster order. */
  function WarNoAttack(war: War, missedAttackCount: Option<int>): (r: seq<WarMember>)
    ensures IsSubseq(r, war.clan.members)
    ensures forall m :: m in r <==> m in war.clan.members && Misses(war, missedAttackCount, m)
    ensures forall m :: multiset(r)[m]
                       == if Misses(war, missedAttackCount, m) then multiset(war.clan.members)[m] else 0
  {
    var missing := (m: WarMember) => Misses(war, missedAttackCount, m);
    FilterIsSubseq(missing, war.clan.members);
    Filter(missing, war.clan.members)
  }

  /** Without a count, a member is reported exactly when some non-zero count reports them. */
  lemma WarNoAttackAnyCount(war: War, m: WarMember)
    ensures m in WarNoAttack(war, None)
            <==> exists k :: k != 0 && m in WarNoAttack(war, Some(k))
  {
    if m in WarNoAttack(war, None) {
      var k := war.attacksPerMember - |m.attacks|;
      assert m in WarNoAttack(war, Some(k));
    }
  }

  // ------------------------------------------------------------- lineups

  const MinTownHall := 1
  const MaxTownHall := 14

  predicate ValidTownHall(th: int)
  {
    MinTownHall <= th <= MaxTownHall
  }

  /** th_lineup_dict: every town-hall level 1..14 with count 0, fresh on each call. */
  function EmptyLineup(): (r: map<int, nat>)
    ensures forall th :: th in r <==> ValidTownHall(th)
    ensures forall th :: th in r ==> r[th] == 0
  {
    map th | MinTownHall <= th <= MaxTownHall && ValidTownHall(th) :: 0
  }

  /** The sum of the counts for the levels lo .. hi-1. */
  function SumCounts(lineup: map<int, nat>, lo: int, hi: int): nat
    requires forall th :: lo <= th < hi ==> th in lineup
    decreases hi - lo
  {
    if lo >= hi then 0 else lineup[lo] + SumCounts(lineup, lo + 1, hi)
  }

  /** The total of a lineup over all levels. */
  function LineupTotal(lineup: map<int, nat>): nat
    requires forall th :: ValidTownHall(th) ==> th in lineup
  {
    assert forall th :: MinTownHall <= th < MaxTownHall + 1 ==> ValidTownHall(th);
    SumCounts(lineup, MinTownHall, MaxTownHall + 1)
  }

  /** The counting loop: add one at each listed town hall, in order. */
  function CountInto(acc: map<int, nat>, townHalls: seq<int>): (r: map<int, nat>)
    requires forall th :: ValidTownHall(th) ==> th in acc
    requires forall i :: 0 <= i < |townHalls| ==> ValidTownHall(townHalls[i])
    ensures r.Keys == acc.Keys
  {
    if |townHalls| == 0 then acc
    else
      var th := townHalls[0];
      CountInto(acc[th := acc[th] + 1], townHalls[1..])
  }

  /** Counting adds, at each level, the number of times the level is listed. */
  lemma {:induction false} CountIntoCounts(acc: map<int, nat>, townHalls: seq<int>)
    requires forall th :: ValidTownHall(th) ==> th in acc
    requires forall i :: 0 <= i < |townHalls| ==> ValidTownHall(townHalls[i])
    ensures forall th :: th in acc ==> CountInto(acc, townHalls)[th] == acc[th] + multiset(townHalls)[th]
    decreases |townHalls|
  {
    if |townHalls| > 0 {
      var th := townHalls[0];
      var next := acc[th := acc[th] + 1];
      assert townHalls == [th] + townHalls[1..];
      assert forall i :: 0 <= i < |townHalls[1..]| ==> ValidTownHall(townHalls[1..][i]);
      CountIntoCounts(next, townHalls[1..]);
    }
  }

  /** The lineup of a list of town halls: each level 1..14 and how many times it occurs. */
  function Lineup(townHalls: seq<int>): (r: map<int, nat>)
    requires forall i :: 0 <= i < |townHalls| ==> ValidTownHall(townHalls[i])
    ensures forall th :: th in r <==> ValidTownHall(th)
    ensures forall th :: th in r ==> r[th] == multiset(townHalls)[th]
  {
    CountIntoCounts(EmptyLineup(), townHalls);
    CountInto(EmptyLineup(), townHalls)
  }

  /** The town-hall level of each member of a roster, in roster order. */
  function TownHalls<T>(members: seq<T>, townHall: T -> int): (r: seq<int>)
    ensures |r| == |members|
    ensures forall i :: 0 <= i < |members| ==> r[i] == townHall(members[i])
  {
    seq(|members|, i requires 0 <= i < |members| => townHall(members[i]))
  }

  /** war_clan_lineup: how many members of a war side sit at each town-hall level. */
  function WarClanLineup(side: WarClan): (r: map<int, nat>)
    requires forall i :: 0 <= i < |side.members| ==> ValidTownHall(side.members[i].townHall)
    ensures forall th :: th in r <==> ValidTownHall(th)
    ensures forall th :: th in r ==> r[th] == multiset(TownHalls(side.members, (m: WarMember) => m.townHall))[th]
  {
    Lineup(TownHalls(side.members, (m: WarMember) => m.townHall))
  }

  /** clan_lineup: how many of the clan's members, as their fetched profiles, sit at each town-hall level. */
  function ClanLineup(players: seq<Units.Player>): (r: map<int, nat>)
    requires forall i :: 0 <= i < |players| ==> ValidTownHall(players[i].townHall)
    ensures forall th :: th in r <==> ValidTownHall(th)
    ensures forall th :: th in r ==> r[th] == multiset(TownHalls(players, (p: Units.Player) => p.townHall))[th]
  {
    Lineup(TownHalls(players, (p: Units.Player) => p.townHall))
  }

  /** cwl_clan_lineup: how many members of a league clan sit at each town-hall level. */
  function CwlClanLineup(clan: CwlClan): (r: map<int, nat>)
    requires forall i :: 0 <= i < |clan.members| ==> ValidTownHall(clan.members[i].townHall)
    ensures forall th :: th in r <==> ValidTownHall(th)
    ensures forall th :: th in r ==> r[th] == multiset(TownHalls(clan.members, (m: ClanMember) => m.townHall))[th]
  {
    Lineup(TownHalls(clan.members, (m: ClanMember) => m.townHall))
  }

  /** One entry of a lineup as the bot lists it: a town-hall level and its count. */
  datatype LineupRow = LineupRow(townHall: int, count: nat)

  /** The entries for the levels `top` down to the lowest, highest first. */
  function RowsFrom(lineup: map<int, nat>, top: int): (r: seq<LineupRow>)
    requires top <= MaxTownHall
    requires forall th :: ValidTownHall(th) ==> th in lineup
    ensures |r| == if top < MinTownHall then 0 else top - MinTownHall + 1
    ensures forall i :: 0 <= i < |r| ==> r[i].townHall == top - i
    ensures forall i :: 0 <= i < |r| ==> ValidTownHall(r[i].townHall) && r[i].count == lineup[r[i].townHall]
    decreases top
  {
    if top < MinTownHall then []
    else
      assert ValidTownHall(top);
      [LineupRow(top, lineup[top])] + RowsFrom(lineup, top - 1)
  }

  /**
   * A lineup in the order the bot lists it: the key order of th_lineup_dict,
   * which every copy keeps, highest town hall first.
   */
  function LineupRows(lineup: map<int, nat>): (r: seq<LineupRow>)
    requires forall th :: ValidTownHall(th) ==> th in lineup
    ensures |r| == MaxTownHall - MinTownHall + 1
    ensures forall i, j :: 0 <= i < j < |r| ==> r[i].townHall > r[j].townHall
    ensures forall th :: ValidTownHall(th) <==> exists i :: 0 <= i < |r| && r[i].townHall == th
    ensures forall i :: 0 <= i < |r| ==> r[i].count == lineup[r[i].townHall]
  {
    var r := RowsFrom(lineup, MaxTownHall);
    assert forall th :: ValidTownHall(th) ==> r[MaxTownHall - th].townHall == th;
    r
  }

  /** The sum of the counts of a list of entries. */
  function RowsTotal(rows: seq<LineupRow>): nat
  {
    if |rows| == 0 then 0 else rows[0].count + RowsTotal(rows[1..])
  }

  // ---------------------------------------------------------------- lemmas

  lemma {:induction false} SumCountsBump(lineup: map<int, nat>, th: int, lo: int, hi: int)
    requires forall t :: lo <= t < hi ==> t in lineup
    requires th in lineup
    ensures SumCounts(lineup[th := lineup[th] + 1], lo, hi)
            == SumCounts(lineup, lo, hi) + (if lo <= th < hi then 1 else 0)
    decreases hi - lo
  {
    if lo < hi {
      SumCountsBump(lineup, th, lo + 1, hi);
    }
  }

  lemma {:induction false} CountIntoTotal(acc: map<int, nat>, townHalls: seq<int>)
    requires forall th :: ValidTownHall(th) ==> th in acc
    requires forall i :: 0 <= i < |townHalls| ==> ValidTownHall(townHalls[i])
    ensures LineupTotal(CountInto(acc, townHalls)) == LineupTotal(acc) + |townHalls|
    decreases |townHalls|
  {
    if |townHalls| > 0 {
      var th := townHalls[0];
      var next := acc[th := acc[th] + 1];
      assert forall t :: ValidTownHall(t) ==> t in next;
      assert forall i :: 0 <= i < |townHalls[1..]| ==> ValidTownHall(townHalls[1..][i]);
      assert forall t :: MinTownHall <= t < MaxTownHall + 1 ==> t in acc;
      SumCountsBump(acc, th, MinTownHall, MaxTownHall + 1);
      assert LineupTotal(next) == LineupTotal(acc) + 1;
      CountIntoTotal(next, townHalls[1..]);
    }
  }

  lemma {:induction false} EmptyLineupTotal(lo: int)
    requires MinTownHall <= lo <= MaxTownHall + 1
    ensures SumCounts(EmptyLineup(), lo, MaxTownHall + 1) == 0
    decreases MaxTownHall + 1 - lo
  {
    if lo <= MaxTownHall {
      EmptyLineupTotal(lo + 1);
    }
  }

  /** The counts of a lineup add up to the number of members counted. */
  lemma LineupConservesMembers(townHalls: seq<int>)
    requires forall i :: 0 <= i < |townHalls| ==> ValidTownHall(townHalls[i])
    ensures LineupTotal(Lineup(townHalls)) == |townHalls|
  {
    EmptyLineupTotal(MinTownHall);
    CountIntoTotal(EmptyLineup(), townHalls);
  }

  lemma ClanLineupConservesMembers(players: seq<Units.Player>)
    requires forall i :: 0 <= i < |players| ==> ValidTownHall(players[i].townHall)
    ensures LineupTotal(ClanLineup(players)) == |players|
  {
    LineupConservesMembers(TownHalls(players, (p: Units.Player) => p.townHall));
  }

  lemma WarClanLineupConservesMembers(side: WarClan)
    requires forall i :: 0 <= i < |side.members| ==> ValidTownHall(side.members[i].townHall)
    ensures LineupTotal(WarClanLineup(side)) == |side.members|
  {
    LineupConservesMembers(TownHalls(side.members, (m: WarMember) => m.townHall));
  }

  lemma CwlClanLineupConservesMembers(clan: CwlClan)
    requires forall i :: 0 <= i < |clan.members| ==> ValidTownHall(clan.members[i].townHall)
    ensures LineupTotal(CwlClanLineup(clan)) == |clan.members|
  {
    LineupConservesMembers(TownHalls(clan.members, (m: ClanMember) => m.townHall));
  }

  lemma {:induction false} SumCountsTop(lineup: map<int, nat>, lo: int, hi: int)
    requires lo <= hi
    requires forall th :: lo <= th <= hi ==> th in lineup
    ensures SumCounts(lineup, lo, hi + 1) == SumCounts(lineup, lo, hi) + lineup[hi]
    decreases hi - lo
  {
    if lo < hi {
      SumCountsTop(lineup, lo + 1, hi);
    }
  }

  lemma {:induction false} RowsFromTotal(lineup: map<int, nat>, top: int)
    requires MinTownHall - 1 <= top <= MaxTownHall
    requires forall th :: ValidTownHall(th) ==> th in lineup
    ensures RowsTotal(RowsFrom(lineup, top)) == SumCounts(lineup, MinTownHall, top + 1)
    decreases top
  {
    if top >= MinTownHall {
      var r := RowsFrom(lineup, top);
      assert r[1..] == RowsFrom(lineup, top - 1);
      RowsFromTotal(lineup, top - 1);
      SumCountsTop(lineup, MinTownHall, top);
    }
  }

  /** Listed highest level first, the counts still add up to the number of members counted. */
  lemma LineupRowsConserveMembers(townHalls: seq<int>)
    requires forall i :: 0 <= i < |townHalls| ==> ValidTownHall(townHalls[i])
    ensures RowsTotal(LineupRows(Lineup(townHalls))) == |townHalls|
  {
    RowsFromTotal(Lineup(townHalls), MaxTownHall);
    LineupConservesMembers(townHalls);
  }
}

=== FILE: war_scoring.dfy ===
/**
 * Scoring of single attacks and of one member's attacks in one war.
 * Source: ClashDiscord/responders/ClashResponder.py, th_multiplier,
 * attack_score and member_score.
 */
module WarScoring {
  import opened Optional
  import opened WarModel

  /** The weight of an attack by town-hall difference (defender minus attacker). */
  function ThMultiplier(thDifference: int): (r: int)
    ensures 35 <= r <= 200
    ensures r == 100 <==> thDifference == 0
    ensures r < 100 <==> thDifference < 0
  {
    if thDifference < -2 then 35
    else if thDifference == -2 then 50
    else if thDifference == -1 then 80
    else if thDifference == 0 then 100
    else if thDifference == 1 then 140
    else if thDifference == 2 then 155
    else if thDifference > 2 then 200
    else assert false; 100
  }

  /** Attack quality: three quarters from the stars, one quarter from the destruction. */
  function AttackQuality(stars: int, destruction: real): real
  {
    (stars as real / 3.0) * 0.75 + (destruction / 100.0) * 0.25
  }

  /** The points of one attack: its quality weighted by the town-hall multiplier. */
  function AttackPoints(stars: int, destruction: real, thDifference: int): (r: real)
    ensures 0 <= stars && 0.0 <= destruction ==> 0.0 <= r
    ensures stars <= 3 && destruction <= 100.0 ==> r <= ThMultiplier(thDifference) as real
    ensures stars == 3 && destruction == 100.0 ==> r == ThMultiplier(thDifference) as real
  {
    var q := AttackQuality(stars, destruction);
    var m := ThMultiplier(thDifference) as real;
    assert 0 <= stars && 0.0 <= destruction ==> 0.0 <= q * m by {
      if 0 <= stars && 0.0 <= destruction {
        assert 0.0 <= q;
      }
    }
    assert stars <= 3 && destruction <= 100.0 ==> q * m <= m by {
      if stars <= 3 && destruction <= 100.0 {
        assert q <= 1.0;
        assert m - q * m == (1.0 - q) * m;
      }
    }
    q * m
  }

  datatype ScoredAttack = ScoredAttack(stars: int, destruction: real, score: real)

  datatype ScoredWarMember = ScoredWarMember(
    tag: string,
    name: string,
    potentialAttackCount: int,
    attackCount: nat,
    stars: int,
    destruction: real,
    score: real)

  /** Every attack of `member` hits a defender that is on the opposing roster. */
  predicate DefendersKnown(war: War, member: WarMember)
  {
    forall i :: 0 <= i < |member.attacks| ==>
      FindMember(war.opponent.members, member.attacks[i].defenderTag).Some?
  }

  /** The member carrying `tag` can be scored: a non-member trivially, a member when every defender is known. */
  predicate MemberReady(war: War, tag: string)
  {
    match FindMember(war.clan.members, tag)
    case None => true
    case Some(m) => DefendersKnown(war, m)
  }

  /** attack_score: the attack's stars, destruction and points against its defender. */
  function AttackScore(attack: Attack, member: WarMember, war: War): (r: ScoredAttack)
    requires FindMember(war.opponent.members, attack.defenderTag).Some?
    ensures r.stars == attack.stars && r.destruction == attack.destruction
    ensures exists d :: d in war.opponent.members && d.tag == attack.defenderTag
                        && r.score == AttackPoints(attack.stars, attack.destruction, d.townHall - member.townHall)
  {
    var defender := FindMember(war.opponent.members, attack.defenderTag).value;
    ScoredAttack(attack.stars, attack.destruction,
                 AttackPoints(attack.stars, attack.destruction, defender.townHall - member.townHall))
  }

  /** The attacks a member may make: one in a league war, two otherwise. */
  function PotentialAttacks(war: War): (r: int)
    ensures r == 1 || r == 2
    ensures r == 1 <==> war.isCwl
  {
    if war.isCwl then 1 else 2
  }

  // Totals over the attacks from position k on, the reference for the loop below.

  function StarsFrom(attacks: seq<Attack>, k: nat): int
    requires k <= |attacks|
    decreases |attacks| - k
  {
    if k == |attacks| then 0 else attacks[k].stars + StarsFrom(attacks, k + 1)
  }

  function DestructionFrom(attacks: seq<Attack>, k: nat): real
    requires k <= |attacks|
    decreases |attacks| - k
  {
    if k == |attacks| then 0.0 else attacks[k].destruction + DestructionFrom(attacks, k + 1)
  }

  function PointsFrom(war: War, member: WarMember, k: nat): real
    requires DefendersKnown(war, member) && k <= |member.attacks|
    decreases |member.attacks| - k
  {
    if k == |member.attacks| then 0.0
    else AttackScore(member.attacks[k], member, war).score + PointsFrom(war, member, k + 1)
  }

  /** The loop of member_score from attack k on: 100 for attacking plus the attack's points. */
  function Tally(war: War, member: WarMember, k: nat, acc: ScoredWarMember): (r: ScoredWarMember)
    requires DefendersKnown(war, member) && k <= |member.attacks|
    ensures r.tag == acc.tag && r.name == acc.name && r.potentialAttackCount == acc.potentialAttackCount
    ensures r.attackCount == acc.attackCount + (|member.attacks| - k)
    ensures r.stars == acc.stars + StarsFrom(member.attacks, k)
    ensures r.destruction == acc.destruction + DestructionFrom(member.attacks, k)
    ensures r.score == acc.score + 100.0 * (|member.attacks| - k) as real + PointsFrom(war, member, k)
    decreases |member.attacks| - k
  {
    if k == |member.attacks| then acc
    else
      var scored := AttackScore(member.attacks[k], member, war);
      Tally(war, member, k + 1, acc.(
        attackCount := acc.attackCount + 1,
        stars := acc.stars + scored.stars,
        destruction := acc.destruction + scored.destruction,
        score := acc.score + 100.0 + scored.score))
  }

  /**
   * member_score: start at -100 per potential attack, add 100 and the
   * attack's points per attack made, divide by the potential attack count.
   */
  function MemberScore(member: WarMember, war: War): (r: ScoredWarMember)
    requires DefendersKnown(war, member)
    ensures r.tag == member.tag && r.name == member.name
    ensures r.potentialAttackCount == PotentialAttacks(war)
    ensures r.attackCount == |member.attacks|
    ensures r.stars == StarsFrom(member.attacks, 0)
    ensures r.destruction == DestructionFrom(member.attacks, 0)
    ensures var net := PointsFrom(war, member, 0) - 100.0 * (PotentialAttacks(war) - |member.attacks|) as real;
            r.score == if war.isCwl then net else net / 2.0
  {
    var potential := PotentialAttacks(war);
    var start := ScoredWarMember(member.tag, member.name, potential, 0, 0, 0.0, potential as real * -100.0);
    var tallied := Tally(war, member, 0, start);
    assert potential == 1 || potential == 2;
    tallied.(score := tallied.score / potential as real)
  }

  // ---------------------------------------------------------------- lemmas

  /** Attacking a base with a higher town hall never weighs less. */
  lemma ThMultiplierMonotone(d1: int, d2: int)
    requires d1 <= d2
    ensures ThMultiplier(d1) <= ThMultiplier(d2)
  {
  }

  /** With the town-hall difference fixed, more stars or destruction never score less. */
  lemma AttackPointsMonotone(s1: int, d1: real, s2: int, d2: real, thDifference: int)
    requires s1 <= s2 && d1 <= d2
    ensures AttackPoints(s1, d1, thDifference) <= AttackPoints(s2, d2, thDifference)
  {
    var m := ThMultiplier(thDifference) as real;
    var q1 := AttackQuality(s1, d1);
    var q2 := AttackQuality(s2, d2);
    assert q1 <= q2;
    assert q2 * m - q1 * m == (q2 - q1) * m;
  }

  /** A member who never attacks scores exactly -100, in a league war or not. */
  lemma NoAttacksScoresFloor(member: WarMember, war: War)
    requires |member.attacks| == 0
    ensures DefendersKnown(war, member)
    ensures MemberScore(member, war).score == -100.0
    ensures MemberScore(member, war).attackCount == 0
  {
  }

  lemma {:induction false} PointsNonNegative(war: War, member: WarMember, k: nat)
    requires DefendersKnown(war, member) && k <= |member.attacks|
    requires forall i :: 0 <= i < |member.attacks| ==>
               member.attacks[i].stars >= 0 && member.attacks[i].destruction >= 0.0
    ensures PointsFrom(war, member, k) >= 0.0
    decreases |member.attacks| - k
  {
    if k < |member.attacks| {
      PointsNonNegative(war, member, k + 1);
    }
  }

  /** Attacks with non-negative stars and destruction never push a score below -100. */
  lemma ScoreAtLeastFloor(member: WarMember, war: War)
    requires DefendersKnown(war, member)
    requires forall i :: 0 <= i < |member.attacks| ==>
               member.attacks[i].stars >= 0 && member.attacks[i].destruction >= 0.0
    ensures MemberScore(member, war).score >= -100.0
  {
    PointsNonNegative(war, member, 0);
    var p := PotentialAttacks(war) as real;
    var pts := PointsFrom(war, member, 0);
    var n := |member.attacks| as real;
    assert pts + 100.0 * n - 100.0 * p >= -100.0 * p;
  }

  /**
   * One three-star, 100% attack against an equal town hall in a regular
   * (two-attack) war scores exactly 0: (-200 + 100 + 100) / 2.
   */
  lemma SingleMaxAttackScoresZero(member: WarMember, war: War, defender: WarMember)
    requires !war.isCwl
    requires |member.attacks| == 1
    requires member.attacks[0].stars == 3 && member.attacks[0].destruction == 100.0
    requires FindMember(war.opponent.members, member.attacks[0].defenderTag) == Some(defender)
    requires defender.townHall == member.townHall
    ensures DefendersKnown(war, member)
    ensures MemberScore(member, war).score == 0.0
  {
    assert PointsFrom(war, member, 1) == 0.0;
    assert PointsFrom(war, member, 0) == 100.0;
  }
}
